=== FILE: README.md ===
# RF capture viewer: interaction state, modelled in Dafny

The application uploads RF captures (a `.cfile` of samples plus a
`.sigmf-meta` descriptor), shows four server-rendered plots per file,
keeps a library of stored files, lets the user annotate the spectrogram, and
asks the backend for synthetic data sets. Its interaction logic is a set of
small deterministic state updates that the React components apply to
immutable state. This project models those updates as pure Dafny functions
over immutable records and proves what they promise.

- `text.dfy`: `Nullable.Option` (JavaScript `null`) and `Text`, the string
  operations the components use: ASCII `toLowerCase`, `trim`, `includes`,
  `endsWith`, and decimal rendering of a number.
- `tabs.dfy`: `Tabs`, the tab bar. Covers fresh ids, delete-by-index with
  adjustment of the shown index, update by id, and the label editor.
- `file_handle.dfy`: `FileHandle`, one tab's session. Covers the extension
  gate on both pickers, the upload, the four-slot plot map, clear, delete,
  load, and the status banner with its dots. The session invariant `Valid`
  keeps all four plot kinds, pairs each chosen file with its shown name,
  allows at most three dots, and allows dots only under an animated banner.
- `saved_files.dfy`: `SavedFiles`, the library list. Covers the
  case-insensitive search and the guarded rename.
- `generate_popup.dfy`: `GeneratePopup`, the synthetic-data form. Covers
  empty-input-to-null, the first-missing-field error, and the submitted payload.
- `annotations.dfy`: `Annotations`, the annotation panel. Covers frequency
  units, corner preview, single expanded row, create-button gate and comment
  fallback.
- `menu.dfy`: `Menu`, the menu bar and its one-open-dropdown rule.
- `file_data.dfy`: `FileData`, the backend record deriving five file names
  from an upload's name.

Every network reply is an input datatype, such as `UploadReply` or
`RenameReply`, that lists the outcomes the handler distinguishes. The
confirmation dialog is a `confirmed` flag. The dots timer is a `Tick` step.
`Number(text)` and the parent's pixel-to-frequency and pixel-to-time
callbacks are function parameters.

Two details of the code are worth stating up front:
- Clearing the current file resets the state this component holds: the two
  choices and their names, the current file id and the plot map. Deleting
  the current file resets the current file id, the plot map and the shown
  plot, and keeps both choices. Annotations, cursors and domain bounds live
  in the parent and are not reset here.
- The metadata rejection message reads "Please select a .sigmf file.", not
  ".sigmf-meta".

## Model

| member | source | states |
|---|---|---|
| `Text.IncludesIffOccurs` | frontend/src/components/SavedFiles.tsx:38 | `includes` holds exactly when the term occurs at some index of the text |
| `Text.BlankIffAllWhitespace` | frontend/src/components/SavedFiles.tsx:42 | `!s.trim()` holds exactly when every character is JavaScript whitespace |
| `Text.ParseNatToString` | frontend/src/components/Tabs.tsx:49 | the decimal text of the tab number reads back as that number |
| `Text.ToLower` | frontend/src/components/SavedFiles.tsx:38 | `toLowerCase` keeps the length and folds each character on its own: upper-case ASCII letters to lower case, everything else unchanged |
| `Text.Trim` | frontend/src/components/SavedFiles.tsx:42 | `trim` gives the slice of the text left after removing whitespace before and after it: everything cut away is whitespace, and the slice neither starts nor ends with whitespace |
| `Text.IsBlank` | frontend/src/components/Annotations.tsx:125 | `!s.trim()`: the trimmed text is empty; `Text.BlankIffAllWhitespace` characterises it |
| `Text.EndsWithIsConcatenation` | frontend/src/components/FileHandle.tsx:56 | `endsWith(suffix)` holds exactly when the name is some text followed by the suffix |
| `Tabs.Initial` | frontend/src/components/Tabs.tsx:35-40 | the bar starts with exactly one tab, id 0, labelled "Tab 1", with no file and an empty annotation list; it is shown, ids are unique and no label is being edited |
| `Tabs.MaxId` | frontend/src/components/Tabs.tsx:48 | `Math.max` of the ids bounds every id and is the id of some tab |
| `Tabs.FreshId` | frontend/src/components/Tabs.tsx:48 | the new id is 0 for an empty bar, else one more than the largest existing id, so it is not among them |
| `Tabs.Add` | frontend/src/components/Tabs.tsx:47-50 | one tab appended with id `FreshId` (max + 1, or 0), label `Tab n+1` and no file; earlier tabs unchanged; the invariant is kept |
| `Tabs.TabLabelInjective` | frontend/src/components/Tabs.tsx:49 | different tab counts give different `Tab n` labels; labels in the bar can still repeat, see `Tabs.LabelsCanRepeat` |
| `Tabs.LabelsCanRepeat` | frontend/src/components/Tabs.tsx:47-57 | the label comes from the tab count, not the id: add, delete the first tab, add again, and two tabs with different ids are both labelled "Tab 2" |
| `Tabs.Select` | frontend/src/components/Tabs.tsx:43-45 | choosing an existing tab index keeps the invariant |
| `Tabs.WithoutIndexIsSplice` | frontend/src/components/Tabs.tsx:53 | the index filter removes exactly element i and keeps the others in order; an index outside the list removes nothing |
| `Tabs.Delete` | frontend/src/components/Tabs.tsx:52-57 | the tab at i goes; the shown index becomes max(0, value-1) when i <= value and is unchanged otherwise |
| `Tabs.DeletePreservesValid` | frontend/src/components/Tabs.tsx:52-57 | after a delete ids stay unique and the shown index stays on a tab while one remains |
| `Tabs.UpdateWhere` | frontend/src/components/Tabs.tsx:60-64 | only the tabs with the given id are changed; length and order stay |
| `Tabs.UpdateFileId` | frontend/src/components/Tabs.tsx:59-65 | only the tab with the id gets the file and annotations; ids, labels, length and other tabs unchanged |
| `Tabs.BeginRename` | frontend/src/components/Tabs.tsx:67-70 | double-click opens the editor on that tab with its current label |
| `Tabs.EditLabel` | frontend/src/components/Tabs.tsx:100 | typing changes the edit buffer and nothing else of the bar |
| `Tabs.RenameSubmit` | frontend/src/components/Tabs.tsx:72-79 | only the matching tab's label becomes the buffer; the editor closes; the invariant is kept |
| `Tabs.KeyDown` | frontend/src/components/Tabs.tsx:81-87 | Enter commits, Escape closes the editor without touching labels, other keys change nothing |
| `Tabs.CancelKeepsLabels` | frontend/src/components/Tabs.tsx:84-86 | an edit cancelled with Escape leaves every label as before, whatever label the editor opened with and whatever was typed |
| `Tabs.Apply` | frontend/src/components/Tabs.tsx:43-87 | one tab-bar event: adding grows the bar by one tab, deleting an existing index shrinks it by one, other events keep the count, and selecting an existing tab shows it |
| `Tabs.Run` | frontend/src/components/Tabs.tsx:43-87 | a run of events grows the bar by at most one tab per event |
| `Tabs.RunPreservesValid` | frontend/src/components/Tabs.tsx:43-87 | any sequence of tab-bar events keeps ids unique and the shown index on a tab |
| `FileHandle.KindNameInjective` | frontend/src/components/FileHandle.tsx:157 | the four plot names are distinct |
| `FileHandle.NoPlots` | frontend/src/components/FileHandle.tsx:39-44 | the plot map has exactly the four kinds, all empty |
| `FileHandle.Mount` | frontend/src/components/FileHandle.tsx:27-44 | a new session holds the tab's file id, no chosen files or names, an empty saved list, four empty plots, the spectrogram tab, the mount banner without dots, and satisfies the session invariant |
| `FileHandle.SetStatus` | frontend/src/components/FileHandle.tsx:282-294 | a changed banner message restarts the dots; an unchanged one changes nothing |
| `FileHandle.UpdateStatusMessage` | frontend/src/components/FileHandle.tsx:296-301 | a message without animation always stops the dots; a changed message restarts them; an unchanged animated message keeps them running; only status and dots change and the invariant is kept |
| `FileHandle.DotStep` | frontend/src/components/FileHandle.tsx:287 | three dots wrap to none, fewer grow by one, and the length never exceeds three |
| `FileHandle.DotsCycle` | frontend/src/components/FileHandle.tsx:286-288 | from no dots, n ticks show n mod 4 dots: period four, at most three |
| `FileHandle.DotsAfter` | frontend/src/components/FileHandle.tsx:287 | from k dots, n ticks show (k+n) mod 4 dots |
| `FileHandle.Tick` | frontend/src/components/FileHandle.tsx:283-290 | while an animated message is shown a tick advances the dots by one animation step; otherwise nothing changes; the invariant is kept |
| `FileHandle.TicksAreDotSteps` | frontend/src/components/FileHandle.tsx:286-288 | while an animated message is shown, n ticks are n animation steps and change nothing else |
| `FileHandle.UploadingDotsCycle` | frontend/src/components/FileHandle.tsx:282-298 | starting an upload from another banner restarts the dots, and n ticks later n mod 4 dots are shown |
| `FileHandle.ChooseCfile` | frontend/src/components/FileHandle.tsx:53-68 | a choice is kept iff present and named `*.cfile`, else choice and name reset with the error; an accepted choice shows the ready message when the metadata file is chosen and the prompt for it otherwise; the metadata choice and the shown plot are kept |
| `FileHandle.ChooseMetaFile` | frontend/src/components/FileHandle.tsx:71-87 | the same gate for `*.sigmf-meta`; an accepted choice shows the ready message when the capture file is chosen and the prompt for it otherwise; the capture choice and the shown plot are kept |
| `FileHandle.UploadEnabled` | frontend/src/components/FileHandle.tsx:344 | the upload button is enabled when both files are chosen; `FileHandle.UploadEnabledIffNamesShown` ties it to the shown names |
| `FileHandle.UploadEnabledIffNamesShown` | frontend/src/components/FileHandle.tsx:344 | in every valid session the upload button is enabled exactly when both chosen file names are shown |
| `FileHandle.ChooseBothEnablesUpload` | frontend/src/components/FileHandle.tsx:64-85 | two accepted choices in either order enable upload with the ready message |
| `FileHandle.Upload` | frontend/src/components/FileHandle.tsx:90-135 | without both files only the banner changes and nothing is sent; a reply without error reports the file, appends it, makes it current, keeps both choices, and fills and shows the spectrogram slot exactly when the reply carries one, leaving the other plots alone; other outcomes only change the banner |
| `FileHandle.UploadAppendsOne` | frontend/src/components/FileHandle.tsx:117-120 | a successful upload appends exactly one entry named after the capture file and keeps the earlier ones |
| `FileHandle.StorePlot` | frontend/src/components/FileHandle.tsx:159-183 | a failed fetch changes nothing; a good one fills only its kind's slot, and switches the shown plot to the spectrogram exactly when the kind is the spectrogram |
| `FileHandle.StorePlotTouchesOneSlot` | frontend/src/components/FileHandle.tsx:174 | storing one kind leaves the other slots as they were |
| `FileHandle.FetchPlots` | frontend/src/components/FileHandle.tsx:156-184 | a run of plot replies changes only the plot map and the shown plot, and keeps the invariant |
| `FileHandle.StorePlotOwnSlot` | frontend/src/components/FileHandle.tsx:166-174 | a reply's own slot takes its image when the reply is good and keeps the earlier image otherwise |
| `FileHandle.FetchPlotsFirst` | frontend/src/components/FileHandle.tsx:159 | the requests are handled in order, the first reply stored before the rest |
| `FileHandle.FetchPlotsFillsSlots` | frontend/src/components/FileHandle.tsx:156-184 | after the four-request run each slot holds its own reply's image when that reply is good and its earlier image otherwise, and the spectrogram is shown exactly when its reply is good |
| `FileHandle.ClearCurrentFile` | frontend/src/components/FileHandle.tsx:139-153 | choices, names, current file and all four plots are reset together, the shown plot is kept, the banner shows no dots, and the tab is told no file is open |
| `FileHandle.DeleteFile` | frontend/src/components/FileHandle.tsx:187-222 | cancel changes nothing; failure only reports; success resets plots, shown plot and current file and tells the tab only when the deleted file is current |
| `FileHandle.FetchSavedFiles` | frontend/src/components/FileHandle.tsx:253-273 | the list is replaced by the reply's array, or emptied when none; errors keep the list and show `Error: <error>` or the fetch-failure banner |
| `FileHandle.AfterDelete` | frontend/src/components/FileHandle.tsx:214-217 | the delayed refresh replaces the list with the fetched one (empty when the reply has none) and reports the delete; a thrown or failed fetch keeps the list and shows its error banner; nothing else changes |
| `FileHandle.LoadFile` | frontend/src/components/FileHandle.tsx:225-249 | the file becomes current, the spectrogram tab is shown, the tab gets the file's annotations, or an empty list when they could not be fetched; the choices, their names, the plots and the saved list are kept |
| `SavedFiles.Mount` | frontend/src/components/SavedFiles.tsx:26-29 | the library starts with the given files, an empty search term, nothing edited, and lists them all |
| `SavedFiles.Sync` | frontend/src/components/SavedFiles.tsx:32-34 | a new list from the parent replaces the local copy and nothing else |
| `SavedFiles.SetSearchTerm` | frontend/src/components/SavedFiles.tsx:83 | typing in the search box changes the term and nothing else |
| `SavedFiles.FilterFiles` | frontend/src/components/SavedFiles.tsx:37-39 | a file is listed iff it is in the library and its lower-cased name includes the lower-cased term |
| `SavedFiles.FilterAppend` | frontend/src/components/SavedFiles.tsx:37-39 | filtering distributes over concatenation, so the original order is kept |
| `SavedFiles.FilterAllMatch` | frontend/src/components/SavedFiles.tsx:37-39 | when every file matches, the list is returned unchanged |
| `SavedFiles.AllMatchEmptyTerm` | frontend/src/components/SavedFiles.tsx:37-39 | an empty term lists every file |
| `SavedFiles.MatchesIffOccurs` | frontend/src/components/SavedFiles.tsx:38 | a match is an occurrence of the folded term in the folded name |
| `SavedFiles.BeginEdit` | frontend/src/components/SavedFiles.tsx:119-122 | the pencil opens the editor on that file with its current name |
| `SavedFiles.EditName` | frontend/src/components/SavedFiles.tsx:102 | typing changes the edit buffer and nothing else |
| `SavedFiles.RenameById` | frontend/src/components/SavedFiles.tsx:59-63 | entries with the id get the new name; every other entry and the length stay |
| `SavedFiles.Rename` | frontend/src/components/SavedFiles.tsx:41-72 | blank or unchanged names and failed requests change no file; every attempt closes the editor |
| `SavedFiles.RenameAcceptedChangesOnlyThatEntry` | frontend/src/components/SavedFiles.tsx:58-63 | an accepted rename changes the matching entry's name and no other entry |
| `SavedFiles.RenameOfMissingFile` | frontend/src/components/SavedFiles.tsx:47-48 | a file no longer in the list is not renamed |
| `SavedFiles.KeyDown` | frontend/src/components/SavedFiles.tsx:104-110 | Enter submits the buffer as the rename, Escape cancels without renaming, other keys change nothing |
| `SavedFiles.CancelKeepsNames` | frontend/src/components/SavedFiles.tsx:107-108 | an edit cancelled with Escape leaves every file name as before, whatever was typed, and closes the editor |
| `SavedFiles.EnterSubmitsTyped` | frontend/src/components/SavedFiles.tsx:102-106 | Enter after typing submits exactly the typed name |
| `GeneratePopup.Defaults` | frontend/src/components/GeneratePopup.tsx:30-40 | the form opens with the nine default numbers (1000, 1024, 5, -75, 2, -109, 10, 200, 10), placement "equally_spaced" and no error |
| `GeneratePopup.DefaultsValidate` | frontend/src/components/GeneratePopup.tsx:30-38 | the opening form passes validation |
| `GeneratePopup.InputChange` | frontend/src/components/GeneratePopup.tsx:42-53 | empty text nulls the field, other text sets its number; the error clears; other fields stay |
| `GeneratePopup.ChoosePlacement` | frontend/src/components/GeneratePopup.tsx:138-147 | choosing a placement leaves the fields alone |
| `GeneratePopup.MessageInjective` | frontend/src/components/GeneratePopup.tsx:57-92 | each error message names one field |
| `GeneratePopup.FirstMissingFrom` | frontend/src/components/GeneratePopup.tsx:56-92 | the search returns nothing iff all fields are set, else a missing field with all earlier ones set |
| `GeneratePopup.FirstMissingUnrolled` | frontend/src/components/GeneratePopup.tsx:57-92 | the first missing field follows the order rows, cols, transmitters, means, deviations, bandwidth, active time |
| `GeneratePopup.Validate` | frontend/src/components/GeneratePopup.tsx:55-95 | validation changes nothing but the error, leaves the form untouched when it passes and sets an error when it fails; `GeneratePopup.ValidateReportsFirstMissing` says which |
| `GeneratePopup.ValidateReportsFirstMissing` | frontend/src/components/GeneratePopup.tsx:55-95 | the form passes iff all nine fields are set; otherwise the error is the message of the first missing field |
| `GeneratePopup.EarlierFieldReportedFirst` | frontend/src/components/GeneratePopup.tsx:57-92 | a missing field with all earlier ones set is reported, whatever the later fields hold |
| `GeneratePopup.Submit` | frontend/src/components/GeneratePopup.tsx:97-118 | a payload goes out iff validation passes; it carries the nine numbers, the two fixed file names and the placement |
| `Annotations.FormatFrequency` | frontend/src/components/Annotations.tsx:36-45 | null reads N/A; otherwise the scaled amount times its unit is the input frequency |
| `Annotations.UnitPartition` | frontend/src/components/Annotations.tsx:38-44 | MHz iff >= 1e6, kHz iff in [1e3, 1e6), Hz otherwise, negatives included |
| `Annotations.AmountInUnitRange` | frontend/src/components/Annotations.tsx:38-44 | MHz amounts are at least 1, kHz amounts in [1, 1000) |
| `Annotations.ReadAsWritten` | frontend/src/components/Annotations.tsx:88-101 | the written read gives N/A iff the list is empty, `undefined` iff the index is past a non-empty list, and otherwise the cursor at that index |
| `Annotations.PreviewAsWritten` | frontend/src/components/Annotations.tsx:87-102 | the written preview pairs TL (v0,h0), TR (v1,h0), BL (v0,h1), BR (v1,h1) through the written read, so the right-hand frequency is `undefined` iff there is one vertical cursor, and likewise for the bottom time |
| `Annotations.OneCursorReadsPastEnd` | frontend/src/components/Annotations.tsx:91-101 | with one vertical cursor, both right-hand corners read index 1 of a one-element list |
| `Annotations.Read` | frontend/src/components/Annotations.tsx:88-101 | the corrected read gives the cursor iff that index exists, else N/A, never `undefined` |
| `Annotations.PreviewCorners` | frontend/src/components/Annotations.tsx:87-102 | the corners pair TL (v0,h0), TR (v1,h0), BL (v0,h1), BR (v1,h1) through the corrected read; each coordinate, BR included, is present iff its cursor exists and is never `undefined` |
| `Annotations.PreviewWithTwoCursors` | frontend/src/components/Annotations.tsx:87-102 | with two cursors per axis both previews agree: TL (v0,h0), TR (v1,h0), BL (v0,h1), BR (v1,h1) |
| `Annotations.FreqLabel` | frontend/src/components/Annotations.tsx:88 | a corner's frequency label stands for the mapped cursor frequency, or N/A |
| `Annotations.TimeLabel` | frontend/src/components/Annotations.tsx:89 | a corner's time label stands for the mapped cursor time, or N/A |
| `Annotations.ToggleExpand` | frontend/src/components/Annotations.tsx:65-67 | the clicked row ends expanded iff it was not, and no other row is expanded |
| `Annotations.AtMostOneExpanded` | frontend/src/components/Annotations.tsx:181 | two expanded rows are the same row |
| `Annotations.ToggleTwice` | frontend/src/components/Annotations.tsx:66 | toggling one row twice from collapsed collapses it |
| `Annotations.CreateEnabledIffVisibleCharacter` | frontend/src/components/Annotations.tsx:125 | the create button is enabled iff the label has a non-whitespace character |
| `Annotations.CommentText` | frontend/src/components/Annotations.tsx:184 | an empty comment shows "No comment provided"; any other comment is shown as is |
| `Menu.ToggleDropdown` | frontend/src/components/Menu.tsx:18-20 | the open menu closes; any other menu opens in its place |
| `Menu.Visible` | frontend/src/components/Menu.tsx:26-59 | each dropdown renders exactly when the open-menu state names it; `Menu.AtMostOneVisible` follows from it |
| `Menu.AtMostOneVisible` | frontend/src/components/Menu.tsx:26-59 | two visible dropdowns of the four are the same one |
| `Menu.ToggleVisibility` | frontend/src/components/Menu.tsx:19 | after a toggle the toggled menu is visible iff it was not, and no other menu is visible |
| `Menu.ToggleTwice` | frontend/src/components/Menu.tsx:19 | toggling one menu twice from all-closed closes it |
| `FileData.BaseName` | backend/FileData.py:18 | the base name is a dot-free prefix of the name, followed by a dot when shorter than it |
| `FileData.BaseNameOfDotless` | backend/FileData.py:18 | a name without a dot is its own base name |
| `FileData.BaseNameOfStemAndExtension` | backend/FileData.py:18 | a dot-free stem followed by a dot and anything has that stem as base name |
| `FileData.Create` | backend/FileData.py:11-26 | the raw name, FFT and metadata are stored unchanged and the five names are base name plus their fixed suffixes |
| `FileData.DerivedNamesDistinct` | backend/FileData.py:20-24 | all five derived names start with the base name and are pairwise distinct |

## Left out

- Network calls: `fetch`, JSON decoding and response shapes beyond the fields a handler reads. Each reply is an input datatype.
- `window.confirm`: a `confirmed` flag. The `setTimeout` and `setInterval` timers: separate `AfterDelete` and `Tick` steps.
- Intermediate banner text shown while a request is pending, such as "Loading file...". Each handler is modelled by its final state, since React applies the synchronous updates after an `await` together.
- Races between overlapping requests, such as a late plot reply arriving after a clear. Each reply is applied as one step, in the order given.
- Pixel-to-frequency and pixel-to-time mapping, cursor dragging, and annotation create, delete and display toggle. Only their prop signatures appear in the annotation panel; their code is not part of this model.
- backend/app.py (Flask routes, MongoDB/GridFS, numpy/matplotlib, base64). It is I/O and floating-point plotting.
- backend/SigMF.py and backend/Annotation.py: a JSON wrapper and a plain record.
- App.tsx, Statistics.tsx, Generate.tsx, main.tsx: network plumbing, downloads, date formatting and bootstrap.
- JSX rendering and MUI styling. This includes the choice of which plot image is displayed.
- Clearing the file input (`event.target.value = ''`). It is a DOM side effect with no state.
- Console logging.
- Annotations.TimeLabel: the two-decimal `toFixed(2)` text is not produced. The label keeps the exact mapped time, because floating-point rendering is out of scope.
- Annotations.FormatFrequency: the two-decimal `toFixed` text is not produced. The label keeps the exact scaled amount, because floating-point rendering is out of scope.
- GeneratePopup.InputChange: `Number(text)` is an arbitrary total function to reals. NaN and Infinity are not modelled.
- Text.ToLower: folds ASCII letters only. Full Unicode case mapping is out of scope.
- Tabs.Apply: ignores a selection index outside the bar. The tab strip only reports indices of existing tabs.
- FileHandle.PickedFile: holds only the file name. The file contents are only forwarded to the server.

## Findings

| source | as written | input that shows it | evidently intended | confidence | as-written member | corrected member |
|---|---|---|---|---|---|---|
| frontend/src/components/Annotations.tsx:91-101 | the right-hand and bottom corners test `length > 0` and then read index 1 | a vertical cursor list with one entry: the top-right and bottom-right corners read `verticalCursors[1]`, which is `undefined` | read index 1 only when the list has two entries, else show N/A | low (the parent normally keeps two cursors per axis); not executed | `Annotations.PreviewAsWritten`, `Annotations.OneCursorReadsPastEnd` | `Annotations.PreviewCorners` |

=== FILE: annotations.dfy ===
/**
 The annotation side panel: the frequency label with its unit, the preview of
 the four corner coordinates read from the cursors, the one-row-expanded
 comment toggle, the label gate of the create button and the comment
 fallback. The pixel-to-frequency and pixel-to-time callbacks are supplied
 by the parent and are parameters here.
 */
module Annotations {
  import opened Nullable
  import Text

  datatype Corners = Corners(freq1: real, time1: real, freq2: real, time2: real)

  /** One labelled frequency-by-time rectangle (`label` is a Dafny keyword,
      hence `labelText`). */
  datatype Annotation = Annotation(id: string, corners: Corners, labelText: string, comment: string, display: bool)

  // ---------------------------------------------------------------------
  // Frequency labels
  // ---------------------------------------------------------------------

  const Kilo: real := 1000.0
  const Mega: real := 1000000.0

  /** A frequency as displayed: missing, or a scaled number with its unit.
      The two-decimal `toFixed` rendering of the number is not modelled. */
  datatype FreqText = NotAvailable | Hertz(amount: real) | Kilohertz(amount: real) | Megahertz(amount: real)

  /** The frequency in hertz a label stands for. */
  function Magnitude(t: FreqText): real
    requires !t.NotAvailable?
  {
    match t
    case Hertz(a) => a
    case Kilohertz(a) => a * Kilo
    case Megahertz(a) => a * Mega
  }

  /** `formatFrequency`: no value reads N/A; otherwise the unit is chosen
      by magnitude and the amount scaled to it, so the label always stands
      for the frequency it was made from. */
  function FormatFrequency(frequency: Option<real>): (r: FreqText)
    ensures r.NotAvailable? <==> frequency.None?
    ensures frequency.Some? ==> Magnitude(r) == frequency.value
  {
    match frequency
    case None => NotAvailable
    case Some(f) =>
      if f >= Mega then Megahertz(f / Mega)
      else if f >= Kilo then Kilohertz(f / Kilo)
      else Hertz(f)
  }

  /** The unit partitions the real line, negatives included: MHz from one
      million up, kHz from one thousand below that, Hz for the rest. */
  lemma UnitPartition(f: real)
    ensures FormatFrequency(Some(f)).Megahertz? <==> f >= Mega
    ensures FormatFrequency(Some(f)).Kilohertz? <==> Kilo <= f < Mega
    ensures FormatFrequency(Some(f)).Hertz? <==> f < Kilo
  {
  }

  /** A scaled amount lies in the range its unit is used for. */
  lemma AmountInUnitRange(f: real)
    ensures var r := FormatFrequency(Some(f));
            (r.Megahertz? ==> r.amount >= 1.0)
            && (r.Kilohertz? ==> 1.0 <= r.amount < Kilo)
            && (r.Hertz? ==> r.amount < Kilo)
  {
  }

  // ---------------------------------------------------------------------
  // Corner preview
  // ---------------------------------------------------------------------

  /** What one corner coordinate is read from: no cursor (N/A), a cursor
      position, or the JavaScript `undefined` of an index past the end. */
  datatype Slot = Missing | Position(pixel: real) | Undefined

  datatype Corner = Corner(freq: Slot, time: Slot)

  datatype Preview = Preview(topLeft: Corner, topRight: Corner, bottomLeft: Corner, bottomRight: Corner)

  /** The read as the component writes it: the list is tested for being
      non-empty, and then index `i` is read whatever its length. */
  function ReadAsWritten(cursors: seq<real>, i: nat): (r: Slot)
    ensures r.Missing? <==> |cursors| == 0
    ensures r.Undefined? <==> 0 < |cursors| <= i
    ensures r.Position? ==> i < |cursors| && r.pixel == cursors[i]
  {
    if |cursors| > 0 then (if i < |cursors| then Position(cursors[i]) else Undefined)
    else Missing
  }

  /** The read the component means: a position exactly when index `i`
      exists, N/A otherwise. */
  function Read(cursors: seq<real>, i: nat): (r: Slot)
    ensures !r.Undefined?
    ensures r.Position? <==> i < |cursors|
    ensures r.Position? ==> r.pixel == cursors[i]
  {
    if i < |cursors| then Position(cursors[i]) else Missing
  }

  function PreviewFrom(read: (seq<real>, nat) -> Slot, vertical: seq<real>, horizontal: seq<real>): Preview {
    Preview(
      Corner(read(vertical, 0), read(horizontal, 0)),
      Corner(read(vertical, 1), read(horizontal, 0)),
      Corner(read(vertical, 0), read(horizontal, 1)),
      Corner(read(vertical, 1), read(horizontal, 1)))
  }

  /** The corner preview as written: frequency from the vertical cursors,
      time from the horizontal ones, left/top from index 0 and right/bottom
      from index 1, each axis guarded only by its list being non-empty. */
  function PreviewAsWritten(vertical: seq<real>, horizontal: seq<real>): (p: Preview)
    ensures p == Preview(Corner(ReadAsWritten(vertical, 0), ReadAsWritten(horizontal, 0)),
                         Corner(ReadAsWritten(vertical, 1), ReadAsWritten(horizontal, 0)),
                         Corner(ReadAsWritten(vertical, 0), ReadAsWritten(horizontal, 1)),
                         Corner(ReadAsWritten(vertical, 1), ReadAsWritten(horizontal, 1)))
    ensures p.topRight.freq.Undefined? <==> |vertical| == 1
    ensures p.bottomLeft.time.Undefined? <==> |horizontal| == 1
  {
    PreviewFrom(ReadAsWritten, vertical, horizontal)
  }

  /** With a single vertical cursor the right-hand corners read index 1 of
      a one-element list. */
  lemma OneCursorReadsPastEnd(x: real, y0: real, y1: real)
    ensures PreviewAsWritten([x], [y0, y1]).topRight.freq == Undefined
    ensures PreviewAsWritten([x], [y0, y1]).bottomRight.freq == Undefined
  {
  }

  /** The corrected preview: the left corners take the first vertical
      cursor and the right corners the second, the top corners the first
      horizontal cursor and the bottom corners the second; every coordinate
      is its cursor when that cursor exists and N/A otherwise, never
      `undefined`. */
  function PreviewCorners(vertical: seq<real>, horizontal: seq<real>): (p: Preview)
    ensures p == Preview(Corner(Read(vertical, 0), Read(horizontal, 0)),
                         Corner(Read(vertical, 1), Read(horizontal, 0)),
                         Corner(Read(vertical, 0), Read(horizontal, 1)),
                         Corner(Read(vertical, 1), Read(horizontal, 1)))
    ensures p.topLeft.freq.Position? <==> |vertical| >= 1
    ensures p.topRight.freq.Position? <==> |vertical| >= 2
    ensures p.topLeft.time.Position? <==> |horizontal| >= 1
    ensures p.bottomLeft.time.Position? <==> |horizontal| >= 2
    ensures p.bottomRight.freq.Position? <==> |vertical| >= 2
    ensures p.bottomRight.time.Position? <==> |horizontal| >= 2
    ensures !p.topRight.freq.Undefined? && !p.bottomRight.freq.Undefined?
    ensures !p.bottomLeft.time.Undefined? && !p.bottomRight.time.Undefined?
  {
    PreviewFrom(Read, vertical, horizontal)
  }

  /** With the two cursors per axis the component always holds, the written
      and the corrected preview agree, and the corners pair the cursors as
      top-left (v0, h0), top-right (v1, h0), bottom-left (v0, h1) and
      bottom-right (v1, h1). */
  lemma PreviewWithTwoCursors(vertical: seq<real>, horizontal: seq<real>)
    requires |vertical| == 2 && |horizontal| == 2
    ensures PreviewAsWritten(vertical, horizontal) == PreviewCorners(vertical, horizontal)
    ensures PreviewCorners(vertical, horizontal).topLeft == Corner(Position(vertical[0]), Position(horizontal[0]))
    ensures PreviewCorners(vertical, horizontal).topRight == Corner(Position(vertical[1]), Position(horizontal[0]))
    ensures PreviewCorners(vertical, horizontal).bottomLeft == Corner(Position(vertical[0]), Position(horizontal[1]))
    ensures PreviewCorners(vertical, horizontal).bottomRight == Corner(Position(vertical[1]), Position(horizontal[1]))
  {
  }

  /** The frequency label of a corner: the parent's pixel-to-frequency
      mapping applied to the cursor, or N/A. */
  function FreqLabel(s: Slot, toFreq: real -> real): (r: FreqText)
    requires !s.Undefined?
    ensures r.NotAvailable? <==> s.Missing?
    ensures s.Position? ==> Magnitude(r) == toFreq(s.pixel)
  {
    FormatFrequency(if s.Position? then Some(toFreq(s.pixel)) else None)
  }

  /** The time label of a corner: the parent's pixel-to-time mapping
      applied to the cursor, or N/A (`None`). */
  function TimeLabel(s: Slot, toTime: real -> real): (r: Option<real>)
    requires !s.Undefined?
    ensures r.None? <==> s.Missing?
    ensures s.Position? ==> r == Some(toTime(s.pixel))
  {
    if s.Position? then Some(toTime(s.pixel)) else None
  }

  // ---------------------------------------------------------------------
  // Comment rows, the create button and the comment fallback
  // ---------------------------------------------------------------------

  /** `toggleExpand`: clicking the expanded row collapses it, clicking any
      other row expands that one instead. */
  function ToggleExpand(expanded: Option<string>, id: string): (r: Option<string>)
    ensures r == Some(id) <==> expanded != Some(id)
    ensures r.Some? ==> r.value == id
  {
    if expanded == Some(id) then None else Some(id)
  }

  /** Whether the comment row of annotation `id` is rendered. */
  predicate IsExpanded(expanded: Option<string>, id: string) {
    expanded == Some(id)
  }

  /** At most one comment row is open at any time. */
  lemma AtMostOneExpanded(expanded: Option<string>, a: string, b: string)
    requires IsExpanded(expanded, a) && IsExpanded(expanded, b)
    ensures a == b
  {
  }

  /** Toggling the same row twice from all-collapsed collapses it again. */
  lemma ToggleTwice(id: string)
    ensures ToggleExpand(ToggleExpand(None, id), id) == None
  {
  }

  /** `disabled={!annotationLabel.trim()}`: creation needs a label with a
      character other than whitespace. */
  predicate CreateEnabled(text: string) {
    !Text.IsBlank(text)
  }

  lemma CreateEnabledIffVisibleCharacter(text: string)
    ensures CreateEnabled(text) <==> exists i :: 0 <= i < |text| && !Text.IsWhitespace(text[i])
  {
    Text.BlankIffAllWhitespace(text);
  }

  const NoCommentText := "No comment provided"

  /** `annotation.comment || 'No comment provided'`: the empty string is
      falsy and replaced by the fallback text. */
  function CommentText(comment: string): (r: string)
    ensures r != ""
    ensures comment == "" ==> r == NoCommentText
    ensures comment != "" ==> r == comment
  {
    if comment == "" then NoCommentText else comment
  }
}

=== FILE: file_data.dfy ===
/**
 The backend's per-upload record: the uploaded capture file's name and the
 names of the five files derived from it (CSV export and four plot images),
 together with the FFT setting and the parsed metadata, which are stored as
 given.
 */
module FileData {

  /** The record; `Meta` is the parsed metadata object and `Fft` the FFT
      setting, both opaque here. */
  datatype FileData<Fft, Meta> = FileData(
    rawDataFilename: string,
    csvFilename: string,
    spectrogramFilename: string,
    iqPlotFilename: string,
    timeDomainFilename: string,
    freqDomainFilename: string,
    sigmf: Meta,
    fft: Fft)

  /** `name.split(".")[0]`: the text before the first dot, or the whole name
      when it has none. It is a prefix of the name, holds no dot, and is
      followed by a dot whenever it is shorter than the name. */
  function BaseName(name: string): (b: string)
    ensures |b| <= |name| && b == name[..|b|]
    ensures forall i :: 0 <= i < |b| ==> b[i] != '.'
    ensures |b| < |name| ==> name[|b|] == '.'
  {
    if |name| == 0 || name[0] == '.' then "" else [name[0]] + BaseName(name[1..])
  }

  /** A name without a dot is its own base name. */
  lemma {:induction false} BaseNameOfDotless(name: string)
    requires forall i :: 0 <= i < |name| ==> name[i] != '.'
    ensures BaseName(name) == name
  {
    if |name| > 0 {
      BaseNameOfDotless(name[1..]);
    }
  }

  /** Only the text before the first dot matters: every extension of a
      dotless stem has that stem as its base name. */
  lemma {:induction false} BaseNameOfStemAndExtension(stem: string, rest: string)
    requires forall i :: 0 <= i < |stem| ==> stem[i] != '.'
    ensures BaseName(stem + "." + rest) == stem
  {
    if |stem| > 0 {
      assert (stem + "." + rest)[1..] == stem[1..] + "." + rest;
      BaseNameOfStemAndExtension(stem[1..], rest);
    } else {
      assert (stem + "." + rest)[0] == '.';
    }
  }

  const CsvSuffix := ".csv"
  const SpectrogramSuffix := "_spectrogram.png"
  const IqPlotSuffix := "_iq_plot.png"
  const TimeDomainSuffix := "_time_domain.png"
  const FreqDomainSuffix := "_freq_domain.png"

  /** `FileData.__init__`. */
  function Create<Fft, Meta>(rawDataFilename: string, fft: Fft, sigmf: Meta): (d: FileData<Fft, Meta>)
    ensures d.rawDataFilename == rawDataFilename && d.fft == fft && d.sigmf == sigmf
    ensures var b := BaseName(rawDataFilename);
            && d.csvFilename == b + CsvSuffix
            && d.spectrogramFilename == b + SpectrogramSuffix
            && d.iqPlotFilename == b + IqPlotSuffix
            && d.timeDomainFilename == b + TimeDomainSuffix
            && d.freqDomainFilename == b + FreqDomainSuffix
  {
    var b := BaseName(rawDataFilename);
    FileData(rawDataFilename, b + CsvSuffix, b + SpectrogramSuffix, b + IqPlotSuffix,
             b + TimeDomainSuffix, b + FreqDomainSuffix, sigmf, fft)
  }

  /** The five derived names in one list. */
  function DerivedNames<Fft, Meta>(d: FileData<Fft, Meta>): seq<string> {
    [d.csvFilename, d.spectrogramFilename, d.iqPlotFilename, d.timeDomainFilename, d.freqDomainFilename]
  }

  /** Appending to a common prefix keeps different suffixes different. */
  lemma PrefixCancels(b: string, x: string, y: string)
    requires b + x == b + y
    ensures x == y
  {
    assert x == (b + x)[|b|..];
    assert y == (b + y)[|b|..];
  }

  /** Every derived name starts with the base name, and no two derived
      names are equal. */
  lemma DerivedNamesDistinct<Fft, Meta>(rawDataFilename: string, fft: Fft, sigmf: Meta)
    ensures var d := Create(rawDataFilename, fft, sigmf);
            var names := DerivedNames(d);
            && (forall i :: 0 <= i < |names| ==> names[i][..|BaseName(rawDataFilename)|] == BaseName(rawDataFilename))
            && (forall i, j :: 0 <= i < j < |names| ==> names[i] != names[j])
  {
    var b := BaseName(rawDataFilename);
    var suffixes := [CsvSuffix, SpectrogramSuffix, IqPlotSuffix, TimeDomainSuffix, FreqDomainSuffix];
    var names := DerivedNames(Create(rawDataFilename, fft, sigmf));
    forall i, j | 0 <= i < j < |names| ensures names[i] != names[j] {
      assert names[i] == b + suffixes[i] && names[j] == b + suffixes[j];
      if names[i] == names[j] {
        PrefixCancels(b, suffixes[i], suffixes[j]);
        assert false;
      }
    }
  }
}

=== FILE: file_handle.dfy ===
/**
 The upload-and-view panel of one tab: the two file pickers with their
 extension gate, the upload, the four plot images, clearing and deleting the
 current file, loading a saved file, and the status banner with its dots.
 Every network reply is a parameter; the dots timer is a `Tick` step.
 */
module FileHandle {
  import opened Nullable
  import Text
  import SavedFiles
  import Annotations

  // ---------------------------------------------------------------------
  // Plot images
  // ---------------------------------------------------------------------

  datatype PlotKind = Spectrogram | TimeDomain | FreqDomain | IqPlot

  /** The name of a plot kind in requests, in the plot map and in `activeTab`. */
  function KindName(k: PlotKind): string {
    match k
    case Spectrogram => "spectrogram"
    case TimeDomain => "time_domain"
    case FreqDomain => "freq_domain"
    case IqPlot => "iq_plot"
  }

  lemma KindNameInjective(a: PlotKind, b: PlotKind)
    requires KindName(a) == KindName(b)
    ensures a == b
  {
  }

  const AllKinds: set<PlotKind> := {Spectrogram, TimeDomain, FreqDomain, IqPlot}

  lemma AllKindsComplete(k: PlotKind)
    ensures k in AllKinds
  {
  }

  /** One base64 image, or nothing yet, per plot kind. */
  type PlotImages = map<PlotKind, Option<string>>

  predicate HasAllKinds(m: PlotImages) {
    m.Keys == AllKinds
  }

  /** The four-slot map with every image missing. */
  function NoPlots(): (m: PlotImages)
    ensures HasAllKinds(m)
    ensures forall k :: k in m ==> m[k].None?
  {
    map[Spectrogram := None, TimeDomain := None, FreqDomain := None, IqPlot := None]
  }

  // ---------------------------------------------------------------------
  // Session state
  // ---------------------------------------------------------------------

  /** A file chosen in a picker; only its name matters to the component. */
  datatype PickedFile = PickedFile(name: string)

  datatype Session = Session(
    currentFileId: Option<string>,
    cfile: Option<PickedFile>,
    metaFile: Option<PickedFile>,
    savedFiles: seq<SavedFiles.SavedFile>,
    status: string,
    cfileName: Option<string>,
    metaFileName: Option<string>,
    dots: string,
    activeTab: string,
    plots: PlotImages)

  /** What the component reports to its tab through `onFileSelect`. */
  datatype Notice = Notice(fileId: Option<string>, annotations: Option<seq<Annotations.Annotation>>)

  /** A new session state and the report to the tab, if any. */
  datatype Outcome = Outcome(session: Session, notice: Option<Notice>)

  /** The invariant every reachable session keeps: the plot map has exactly
      the four kinds, the picked files and their shown names go together,
      the dots never exceed three, and a banner without the animation shows
      no dots. */
  predicate Valid(s: Session) {
    && HasAllKinds(s.plots)
    && (s.cfile.Some? <==> s.cfileName.Some?)
    && (s.cfile.Some? ==> s.cfileName.value == s.cfile.value.name)
    && (s.metaFile.Some? <==> s.metaFileName.Some?)
    && (s.metaFile.Some? ==> s.metaFileName.value == s.metaFile.value.name)
    && |s.dots| <= 3
    && (!Animated(s.status) ==> s.dots == "")
  }

  const UploadingMessage := "Uploading files"
  const ClearingAllMessage := "Clearing all saved files..."

  /** The two messages shown with the animated dots. */
  predicate Animated(message: string) {
    message == UploadingMessage || message == ClearingAllMessage
  }

  /** A session as first rendered for the tab's file, after the mount
      effect replaced the initial banner text. */
  function Mount(fileId: Option<string>): (s: Session)
    ensures Valid(s)
    ensures s.currentFileId == fileId && s.cfile.None? && s.metaFile.None?
    ensures s.cfileName.None? && s.metaFileName.None?
    ensures s.savedFiles == [] && s.plots == NoPlots() && s.activeTab == "spectrogram"
    ensures s.status == "Please upload a .cfile and .sigmf file" && s.dots == ""
  {
    var initial := Session(fileId, None, None, [], "Please upload a .cfile and .sigmf-meta file",
                           None, None, "", "spectrogram", NoPlots());
    SetStatus(initial, "Please upload a .cfile and .sigmf file")
  }

  // ---------------------------------------------------------------------
  // Status banner and dots
  // ---------------------------------------------------------------------

  /** `setStatusMessage` together with the effect that runs when the message
      changes: a changed message restarts the dots from nothing. */
  function SetStatus(s: Session, message: string): (r: Session)
    ensures r.status == message
    ensures message != s.status ==> r.dots == ""
    ensures message == s.status ==> r == s
    ensures r.(status := s.status, dots := s.dots) == s
  {
    if message == s.status then s else s.(status := message, dots := "")
  }

  /** `updateStatusMessage`: as `SetStatus`, and a message without the
      animation stops the dots even when it is unchanged. An unchanged
      animated message keeps the running dots. */
  function UpdateStatusMessage(s: Session, message: string): (r: Session)
    ensures r.status == message
    ensures !Animated(message) ==> r.dots == ""
    ensures message != s.status ==> r.dots == ""
    ensures message == s.status && Animated(message) ==> r == s
    ensures r.(status := s.status, dots := s.dots) == s
    ensures Valid(s) ==> Valid(r)
  {
    var r := SetStatus(s, message);
    if Animated(message) then r else r.(dots := "")
  }

  /** One step of the dots animation: three dots wrap to none, fewer
      grow by one. */
  function DotStep(dots: string): (r: string)
    ensures |dots| <= 3 ==> |r| <= 3
    ensures |dots| == 3 ==> r == ""
    ensures |dots| != 3 ==> r == dots + "."
  {
    if |dots| == 3 then "" else dots + "."
  }

  /** `n` ticks of the animation. */
  function DotSteps(dots: string, n: nat): string
    decreases n
  {
    if n == 0 then dots else DotSteps(DotStep(dots), n - 1)
  }

  /** The string of `k` dots. */
  function Dots(k: nat): (r: string)
    ensures |r| == k
  {
    if k == 0 then "" else Dots(k - 1) + "."
  }

  /** Started from nothing, the dots after `n` ticks are `n mod 4` dots:
      the animation cycles with period four and never shows more than three. */
  lemma DotsCycle(n: nat)
    ensures DotSteps("", n) == Dots(n % 4)
    ensures |DotSteps("", n)| <= 3
  {
    DotsAfter(0, n);
  }

  /** From `k` dots, `n` ticks leave `(k + n) mod 4` dots. */
  lemma {:induction false} DotsAfter(k: nat, n: nat)
    requires k <= 3
    ensures DotSteps(Dots(k), n) == Dots((k + n) % 4)
    decreases n
  {
    if n > 0 {
      var next := if k == 3 then 0 else k + 1;
      assert DotStep(Dots(k)) == Dots(next);
      DotsAfter(next, n - 1);
    }
  }

  /** One timer tick: the interval only runs while an animated message is
      shown. */
  function Tick(s: Session): (r: Session)
    ensures Animated(s.status) ==> r.dots == DotStep(s.dots)
    ensures !Animated(s.status) ==> r == s
    ensures Valid(s) ==> Valid(r)
    ensures r.(dots := s.dots) == s
  {
    if Animated(s.status) then s.(dots := DotStep(s.dots)) else s
  }

  /** `n` timer ticks. */
  function Ticks(s: Session, n: nat): Session
    decreases n
  {
    if n == 0 then s else Ticks(Tick(s), n - 1)
  }

  /** While an animated message is shown, `n` ticks are `n` steps of the
      animation and change nothing else. */
  lemma {:induction false} TicksAreDotSteps(s: Session, n: nat)
    requires Animated(s.status)
    ensures Ticks(s, n) == s.(dots := DotSteps(s.dots, n))
    decreases n
  {
    if n > 0 {
      TicksAreDotSteps(Tick(s), n - 1);
    }
  }

  /** Starting an upload from any other banner restarts the dots, and `n`
      ticks later the banner shows `n mod 4` of them. */
  lemma UploadingDotsCycle(s: Session, n: nat)
    requires s.status != UploadingMessage
    ensures Ticks(UpdateStatusMessage(s, UploadingMessage), n).dots == Dots(n % 4)
  {
    var started := UpdateStatusMessage(s, UploadingMessage);
    TicksAreDotSteps(started, n);
    DotsCycle(n);
  }

  // ---------------------------------------------------------------------
  // Choosing files
  // ---------------------------------------------------------------------

  const CfileSuffix := ".cfile"
  const MetaSuffix := ".sigmf-meta"

  /** `handleCFileChange`: a missing choice or a name without the `.cfile`
      suffix clears the capture-file choice with an error message; an
      accepted one is kept, and the banner says whether both files are now
      chosen. The metadata choice is never touched. */
  function ChooseCfile(s: Session, file: Option<PickedFile>): (r: Session)
    ensures r.metaFile == s.metaFile && r.metaFileName == s.metaFileName
    ensures r.currentFileId == s.currentFileId && r.plots == s.plots && r.savedFiles == s.savedFiles
    ensures r.cfile.Some? <==> file.Some? && Text.EndsWith(file.value.name, CfileSuffix)
    ensures r.cfile.Some? ==> r.cfile == file && r.cfileName == Some(file.value.name)
    ensures r.cfile.None? ==> r.cfileName.None? && r.status == "Invalid file type. Please select a .cfile."
    ensures r.cfile.Some? ==> (r.status == "Ready to upload both files." <==> s.metaFile.Some?)
    ensures r.cfile.Some? && s.metaFile.None? ==> r.status == "Now select and upload a .sigmf-meta file."
    ensures r.activeTab == s.activeTab
    ensures Valid(s) ==> Valid(r)
  {
    if file.None? || !Text.EndsWith(file.value.name, CfileSuffix) then
      SetStatus(s, "Invalid file type. Please select a .cfile.").(cfile := None, cfileName := None)
    else
      SetStatus(s, if s.metaFile.Some? then "Ready to upload both files." else "Now select and upload a .sigmf-meta file.")
        .(cfile := file, cfileName := Some(file.value.name))
  }

  /** `handleMetaFileChange`: the same gate for the `.sigmf-meta` suffix. */
  function ChooseMetaFile(s: Session, file: Option<PickedFile>): (r: Session)
    ensures r.cfile == s.cfile && r.cfileName == s.cfileName
    ensures r.currentFileId == s.currentFileId && r.plots == s.plots && r.savedFiles == s.savedFiles
    ensures r.metaFile.Some? <==> file.Some? && Text.EndsWith(file.value.name, MetaSuffix)
    ensures r.metaFile.Some? ==> r.metaFile == file && r.metaFileName == Some(file.value.name)
    ensures r.metaFile.None? ==> r.metaFileName.None? && r.status == "Invalid file type. Please select a .sigmf file."
    ensures r.metaFile.Some? ==> (r.status == "Ready to upload both files." <==> s.cfile.Some?)
    ensures r.metaFile.Some? && s.cfile.None? ==> r.status == "Now select and upload a .cfile."
    ensures r.activeTab == s.activeTab
    ensures Valid(s) ==> Valid(r)
  {
    if file.None? || !Text.EndsWith(file.value.name, MetaSuffix) then
      SetStatus(s, "Invalid file type. Please select a .sigmf file.").(metaFile := None, metaFileName := None)
    else
      SetStatus(s, if s.cfile.Some? then "Ready to upload both files." else "Now select and upload a .cfile.")
        .(metaFile := file, metaFileName := Some(file.value.name))
  }

  /** The upload button is enabled exactly when both files are chosen. */
  predicate UploadEnabled(s: Session) {
    s.cfile.Some? && s.metaFile.Some?
  }

  /** In every reachable session the upload button is enabled exactly when
      both chosen file names are shown. */
  lemma UploadEnabledIffNamesShown(s: Session)
    requires Valid(s)
    ensures UploadEnabled(s) <==> s.cfileName.Some? && s.metaFileName.Some?
  {
  }

  /** After choosing both files with the right suffixes, in either order,
      the upload is enabled and the banner says so. */
  lemma ChooseBothEnablesUpload(s: Session, c: PickedFile, m: PickedFile)
    requires Text.EndsWith(c.name, CfileSuffix) && Text.EndsWith(m.name, MetaSuffix)
    ensures var r := ChooseMetaFile(ChooseCfile(s, Some(c)), Some(m));
            UploadEnabled(r) && r.status == "Ready to upload both files."
    ensures var r := ChooseCfile(ChooseMetaFile(s, Some(m)), Some(c));
            UploadEnabled(r) && r.status == "Ready to upload both files."
  {
  }

  // ---------------------------------------------------------------------
  // Upload
  // ---------------------------------------------------------------------

  /** JavaScript truthiness of an optional string field. */
  predicate Truthy(field: Option<string>) {
    field.Some? && field.value != ""
  }

  /** How the upload request ended: it threw, or it answered with these
      response fields. */
  datatype UploadReply =
    | UploadThrew
    | UploadAnswered(error: Option<string>, fileId: string, message: string,
                     spectrogram: Option<string>, annotations: Option<seq<Annotations.Annotation>>)

  /** `handleUpload`. Without both files only the banner changes and nothing
      is sent. A failed request or a reported error changes only the banner.
      A successful one reports the new file to the tab, appends it to the
      saved list under the capture file's name, shows the spectrogram that
      came with it, and makes it the current file. */
  function Upload(s: Session, reply: UploadReply): (o: Outcome)
    ensures !UploadEnabled(s) ==>
              o.notice.None? && o.session == SetStatus(s, "Both .cfile and .sigmf-meta files are required.")
    ensures o.notice.Some? <==> UploadEnabled(s) && reply.UploadAnswered? && !Truthy(reply.error)
    ensures o.notice.None? ==> o.session.(status := s.status, dots := s.dots) == s
    ensures o.notice.Some? ==>
              && o.notice.value == Notice(Some(reply.fileId), reply.annotations)
              && o.session.savedFiles == s.savedFiles + [SavedFiles.SavedFile(reply.fileId, s.cfile.value.name)]
              && o.session.currentFileId == Some(reply.fileId)
              && o.session.status == reply.message
              && o.session.cfile == s.cfile && o.session.metaFile == s.metaFile
              && o.session.cfileName == s.cfileName && o.session.metaFileName == s.metaFileName
    ensures o.notice.Some? && Truthy(reply.spectrogram) ==>
              o.session.plots == s.plots[Spectrogram := reply.spectrogram] && o.session.activeTab == "spectrogram"
    ensures o.notice.Some? && !Truthy(reply.spectrogram) ==>
              o.session.plots == s.plots && o.session.activeTab == s.activeTab
    ensures Valid(s) ==> Valid(o.session)
  {
    if !UploadEnabled(s) then
      Outcome(SetStatus(s, "Both .cfile and .sigmf-meta files are required."), None)
    else
      var sending := UpdateStatusMessage(s, UploadingMessage);
      match reply
      case UploadThrew =>
        Outcome(SetStatus(sending, "Upload failed. Please try again."), None)
      case UploadAnswered(error, fileId, message, spectrogram, annotations) =>
        if Truthy(error) then
          Outcome(SetStatus(sending, "Error: " + error.value), None)
        else
          var listed := sending.(savedFiles := s.savedFiles + [SavedFiles.SavedFile(fileId, s.cfile.value.name)]);
          var shown :=
            if Truthy(spectrogram) then AllKindsComplete(Spectrogram); listed.(plots := listed.plots[Spectrogram := spectrogram], activeTab := "spectrogram")
            else listed;
          Outcome(SetStatus(shown.(currentFileId := Some(fileId)), message), Some(Notice(Some(fileId), annotations)))
  }

  /** A successful upload keeps every earlier saved entry in place and adds
      exactly one. */
  lemma UploadAppendsOne(s: Session, reply: UploadReply)
    requires UploadEnabled(s) && reply.UploadAnswered? && !Truthy(reply.error)
    ensures var r := Upload(s, reply).session;
            |r.savedFiles| == |s.savedFiles| + 1
            && r.savedFiles[..|s.savedFiles|] == s.savedFiles
            && r.savedFiles[|s.savedFiles|].filename == s.cfile.value.name
  {
  }

  // ---------------------------------------------------------------------
  // Fetching plots
  // ---------------------------------------------------------------------

  /** How one plot request ended: it threw, or answered with an error field
      and an image field. */
  datatype PlotReply = PlotThrew | PlotAnswered(error: Option<string>, image: Option<string>)

  /** One iteration of `fetchPlots`: a failed request or a reported error
      leaves the session alone; otherwise the image fills the slot of its
      kind, and the spectrogram also becomes the shown plot. */
  function StorePlot(s: Session, kind: PlotKind, reply: PlotReply): (r: Session)
    ensures reply.PlotThrew? || Truthy(reply.error) ==> r == s
    ensures reply.PlotAnswered? && !Truthy(reply.error) ==> r.plots == s.plots[kind := reply.image]
    ensures r.activeTab != s.activeTab ==> r.activeTab == "spectrogram" && kind == Spectrogram
    ensures reply.PlotAnswered? && !Truthy(reply.error) && kind == Spectrogram ==> r.activeTab == "spectrogram"
    ensures r.(plots := s.plots, activeTab := s.activeTab) == s
    ensures Valid(s) ==> Valid(r)
  {
    match reply
    case PlotThrew => s
    case PlotAnswered(error, image) =>
      if Truthy(error) then s
      else
        AllKindsComplete(kind);
        var stored := s.(plots := s.plots[kind := image]);
        if kind == Spectrogram then stored.(activeTab := "spectrogram") else stored
  }

  /** Storing one plot leaves the other three slots as they were. */
  lemma StorePlotTouchesOneSlot(s: Session, kind: PlotKind, reply: PlotReply, other: PlotKind)
    requires Valid(s) && other != kind
    ensures StorePlot(s, kind, reply).plots[other] == s.plots[other]
  {
  }

  /** The four replies of one `fetchPlots` run, applied in request order. */
  function FetchPlots(s: Session, replies: seq<(PlotKind, PlotReply)>): (r: Session)
    decreases |replies|
    ensures Valid(s) ==> Valid(r)
    ensures r.(plots := s.plots, activeTab := s.activeTab) == s
  {
    if |replies| == 0 then s else FetchPlots(StorePlot(s, replies[0].0, replies[0].1), replies[1..])
  }

  /** The image a slot holds after one reply: the reply's image when the
      request succeeded without an error, the earlier image otherwise. */
  function SlotAfter(before: Option<string>, reply: PlotReply): Option<string> {
    if reply.PlotAnswered? && !Truthy(reply.error) then reply.image else before
  }

  /** A stored reply leaves its own slot as `SlotAfter` says. */
  lemma StorePlotOwnSlot(s: Session, kind: PlotKind, reply: PlotReply)
    requires Valid(s)
    ensures StorePlot(s, kind, reply).plots[kind] == SlotAfter(s.plots[kind], reply)
  {
    AllKindsComplete(kind);
  }

  /** The first reply of a run is stored before the rest. */
  lemma FetchPlotsFirst(s: Session, kind: PlotKind, reply: PlotReply, rest: seq<(PlotKind, PlotReply)>)
    ensures FetchPlots(s, [(kind, reply)] + rest) == FetchPlots(StorePlot(s, kind, reply), rest)
  {
    assert ([(kind, reply)] + rest)[1..] == rest;
  }

  /** The run `fetchPlots` performs, one request per kind in the order
      spectrogram, time domain, frequency domain, IQ plot: each slot ends
      with its own reply's image when that reply is good and keeps its
      earlier image otherwise, and the spectrogram is shown exactly when
      its reply is good. */
  lemma FetchPlotsFillsSlots(s: Session, a: PlotReply, b: PlotReply, c: PlotReply, d: PlotReply)
    requires Valid(s)
    ensures var r := FetchPlots(s, [(Spectrogram, a), (TimeDomain, b), (FreqDomain, c), (IqPlot, d)]);
            && HasAllKinds(r.plots)
            && r.plots[Spectrogram] == SlotAfter(s.plots[Spectrogram], a)
            && r.plots[TimeDomain] == SlotAfter(s.plots[TimeDomain], b)
            && r.plots[FreqDomain] == SlotAfter(s.plots[FreqDomain], c)
            && r.plots[IqPlot] == SlotAfter(s.plots[IqPlot], d)
            && r.activeTab == (if a.PlotAnswered? && !Truthy(a.error) then "spectrogram" else s.activeTab)
  {
    var s1 := StorePlot(s, Spectrogram, a);
    var s2 := StorePlot(s1, TimeDomain, b);
    var s3 := StorePlot(s2, FreqDomain, c);
    var s4 := StorePlot(s3, IqPlot, d);
    FetchPlotsFirst(s, Spectrogram, a, [(TimeDomain, b), (FreqDomain, c), (IqPlot, d)]);
    FetchPlotsFirst(s1, TimeDomain, b, [(FreqDomain, c), (IqPlot, d)]);
    FetchPlotsFirst(s2, FreqDomain, c, [(IqPlot, d)]);
    FetchPlotsFirst(s3, IqPlot, d, []);
    assert [(Spectrogram, a)] + [(TimeDomain, b), (FreqDomain, c), (IqPlot, d)]
        == [(Spectrogram, a), (TimeDomain, b), (FreqDomain, c), (IqPlot, d)];
    StorePlotOwnSlot(s, Spectrogram, a);
    StorePlotOwnSlot(s1, TimeDomain, b);
    StorePlotOwnSlot(s2, FreqDomain, c);
    StorePlotOwnSlot(s3, IqPlot, d);
  }

  // ---------------------------------------------------------------------
  // Clearing, deleting and loading
  // ---------------------------------------------------------------------

  /** `handleClearCurrentFile`: both choices and their names, the current
      file and all four plots are reset together, and the tab is told that
      no file is open. */
  function ClearCurrentFile(s: Session): (o: Outcome)
    ensures var r := o.session;
            && r.cfile.None? && r.metaFile.None? && r.cfileName.None? && r.metaFileName.None?
            && r.currentFileId.None?
            && HasAllKinds(r.plots) && (forall k :: k in r.plots ==> r.plots[k].None?)
            && r.savedFiles == s.savedFiles
            && r.status == "File cleared. Please upload new files."
    ensures o.session.activeTab == s.activeTab
    ensures o.notice == Some(Notice(None, None))
    ensures s.status != "File cleared. Please upload new files." ==> o.session.dots == ""
    ensures |s.dots| <= 3 && (s.status != "File cleared. Please upload new files." || s.dots == "") ==> Valid(o.session)
    ensures Valid(s) ==> Valid(o.session) && o.session.dots == ""
  {
    var cleared := s.(cfile := None, metaFile := None, cfileName := None, metaFileName := None,
                      currentFileId := None, plots := NoPlots());
    Outcome(SetStatus(cleared, "File cleared. Please upload new files."), Some(Notice(None, None)))
  }

  /** `handleSingleDelete` up to the delayed refresh. A cancelled
      confirmation does nothing; a failed request only reports the failure.
      After a successful delete the plots, the shown plot and the current
      file are reset, and the tab told, only when the deleted file is the
      current one. */
  function DeleteFile(s: Session, fileId: string, confirmed: bool, deleted: bool): (o: Outcome)
    ensures !confirmed ==> o == Outcome(s, None)
    ensures confirmed && !deleted ==> o == Outcome(SetStatus(s, "Failed to delete file."), None)
    ensures confirmed && deleted && s.currentFileId != Some(fileId) ==> o == Outcome(s, None)
    ensures confirmed && deleted && s.currentFileId == Some(fileId) ==>
              && o.session.currentFileId.None? && o.session.activeTab == ""
              && o.session.plots == NoPlots()
              && o.notice == Some(Notice(None, None))
              && o.session.(currentFileId := s.currentFileId, activeTab := s.activeTab, plots := s.plots) == s
    ensures Valid(s) ==> Valid(o.session)
  {
    if !confirmed then Outcome(s, None)
    else if !deleted then Outcome(SetStatus(s, "Failed to delete file."), None)
    else if Some(fileId) == s.currentFileId then
      Outcome(s.(activeTab := "", plots := NoPlots(), currentFileId := None), Some(Notice(None, None)))
    else Outcome(s, None)
  }

  /** How the saved-file list request ended. `files` is present when the
      response holds an array. */
  datatype ListReply = ListThrew | ListAnswered(error: Option<string>, files: Option<seq<SavedFiles.SavedFile>>)

  /** `fetchSavedFiles`. */
  function FetchSavedFiles(s: Session, reply: ListReply): (r: Session)
    ensures reply.ListThrew? ==> r == SetStatus(s, "Error fetching saved files")
    ensures reply.ListAnswered? && Truthy(reply.error) ==>
              r.savedFiles == s.savedFiles && r.status == "Error: " + reply.error.value
    ensures reply.ListAnswered? && !Truthy(reply.error) ==>
              r.savedFiles == (if reply.files.Some? then reply.files.value else []) && r.status == s.status
    ensures r.(savedFiles := s.savedFiles, status := s.status, dots := s.dots) == s
    ensures Valid(s) ==> Valid(r)
  {
    match reply
    case ListThrew => SetStatus(s, "Error fetching saved files")
    case ListAnswered(error, files) =>
      if Truthy(error) then SetStatus(s, "Error: " + error.value)
      else if files.Some? then s.(savedFiles := files.value)
      else s.(savedFiles := [])
  }

  /** The delayed step after a successful delete: the banner reports the
      delete and the list is fetched again. */
  function AfterDelete(s: Session, reply: ListReply): (r: Session)
    ensures reply.ListAnswered? && !Truthy(reply.error) ==>
              && r.status == "File successfully deleted."
              && r.savedFiles == (if reply.files.Some? then reply.files.value else [])
    ensures reply.ListThrew? ==> r.status == "Error fetching saved files" && r.savedFiles == s.savedFiles
    ensures reply.ListAnswered? && Truthy(reply.error) ==>
              r.status == "Error: " + reply.error.value && r.savedFiles == s.savedFiles
    ensures r.(savedFiles := s.savedFiles, status := s.status, dots := s.dots) == s
    ensures Valid(s) ==> Valid(r)
  {
    FetchSavedFiles(SetStatus(s, "File successfully deleted."), reply)
  }

  /** How the annotation request of a load ended. */
  datatype AnnotationsReply =
    | AnnotationsThrew
    | AnnotationsAnswered(error: Option<string>, annotations: Option<seq<Annotations.Annotation>>)

  /** `handleLoadFile`, after its replies: the spectrogram tab is shown, the
      file becomes current, and the tab is given the file's annotations, or
      an empty list when they could not be fetched. */
  function LoadFile(s: Session, fileId: string, reply: AnnotationsReply): (o: Outcome)
    ensures o.session.currentFileId == Some(fileId) && o.session.activeTab == "spectrogram"
    ensures o.session.status == "Files loaded successfully"
    ensures o.notice.Some? && o.notice.value.fileId == Some(fileId)
    ensures reply.AnnotationsThrew? || Truthy(reply.error) ==> o.notice.value.annotations == Some([])
    ensures reply.AnnotationsAnswered? && !Truthy(reply.error) ==> o.notice.value.annotations == reply.annotations
    ensures o.session.plots == s.plots && o.session.savedFiles == s.savedFiles
    ensures o.session.cfile == s.cfile && o.session.metaFile == s.metaFile
    ensures o.session.cfileName == s.cfileName && o.session.metaFileName == s.metaFileName
    ensures Valid(s) ==> Valid(o.session)
  {
    var loading := SetStatus(s.(activeTab := "spectrogram"), "Loading file...");
    var annotations :=
      match reply
      case AnnotationsThrew => Some([])
      case AnnotationsAnswered(error, list) => if Truthy(error) then Some([]) else list;
    var after := if reply.AnnotationsAnswered? && Truthy(reply.error) then SetStatus(loading, "Failed to load annotations.") else loading;
    Outcome(SetStatus(after, "Files loaded successfully").(currentFileId := Some(fileId)),
            Some(Notice(Some(fileId), annotations)))
  }
}

=== FILE: generate_popup.dfy ===
/**
 The synthetic-data form: nine nullable numeric fields, a placement method
 and one error message. Turning input text into a number (`Number(value)`)
 is a parameter.
 */
module GeneratePopup {
  import opened Nullable

  datatype Field = Rows | Cols | NumTransmitters | TransmitterMean | TransmitterSd
                 | NoiseMean | NoiseSd | Bandwidth | ActiveTime

  /** The order in which the form reports a missing field. */
  const FieldOrder: seq<Field> :=
    [Rows, Cols, NumTransmitters, TransmitterMean, TransmitterSd, NoiseMean, NoiseSd, Bandwidth, ActiveTime]

  datatype Form = Form(
    rows: Option<real>, cols: Option<real>, numTransmitters: Option<real>,
    transmitterMean: Option<real>, transmitterSd: Option<real>,
    noiseMean: Option<real>, noiseSd: Option<real>,
    bandwidth: Option<real>, activeTime: Option<real>,
    placementMethod: string, error: Option<string>)

  function Get(form: Form, f: Field): Option<real> {
    match f
    case Rows => form.rows
    case Cols => form.cols
    case NumTransmitters => form.numTransmitters
    case TransmitterMean => form.transmitterMean
    case TransmitterSd => form.transmitterSd
    case NoiseMean => form.noiseMean
    case NoiseSd => form.noiseSd
    case Bandwidth => form.bandwidth
    case ActiveTime => form.activeTime
  }

  /** Sets one field and leaves every other field, the placement method and
      the error as they were. */
  function Set(form: Form, f: Field, v: Option<real>): (r: Form)
    ensures Get(r, f) == v
    ensures forall g :: g != f ==> Get(r, g) == Get(form, g)
    ensures r.placementMethod == form.placementMethod && r.error == form.error
  {
    match f
    case Rows => form.(rows := v)
    case Cols => form.(cols := v)
    case NumTransmitters => form.(numTransmitters := v)
    case TransmitterMean => form.(transmitterMean := v)
    case TransmitterSd => form.(transmitterSd := v)
    case NoiseMean => form.(noiseMean := v)
    case NoiseSd => form.(noiseSd := v)
    case Bandwidth => form.(bandwidth := v)
    case ActiveTime => form.(activeTime := v)
  }

  /** The text shown when a field is missing. */
  function Message(f: Field): string {
    match f
    case Rows => "Rows is required"
    case Cols => "Columns is required"
    case NumTransmitters => "Number of Transmitters is required"
    case TransmitterMean => "Transmitter Mean is required"
    case TransmitterSd => "Transmitter Standard Deviation is required"
    case NoiseMean => "Noise Mean is required"
    case NoiseSd => "Noise Standard Deviation is required"
    case Bandwidth => "Bandwidth is required"
    case ActiveTime => "Active Time is required"
  }

  /** Each message names one field. */
  lemma MessageInjective(f: Field, g: Field)
    requires Message(f) == Message(g)
    ensures f == g
  {
  }

  /** The form as it opens. */
  function Defaults(): (form: Form)
    ensures forall f :: Get(form, f).Some?
    ensures form.error.None?
    ensures form.placementMethod == "equally_spaced"
    ensures Get(form, Rows) == Some(1000.0) && Get(form, Cols) == Some(1024.0)
    ensures Get(form, NumTransmitters) == Some(5.0)
    ensures Get(form, TransmitterMean) == Some(-75.0) && Get(form, TransmitterSd) == Some(2.0)
    ensures Get(form, NoiseMean) == Some(-109.0) && Get(form, NoiseSd) == Some(10.0)
    ensures Get(form, Bandwidth) == Some(200.0) && Get(form, ActiveTime) == Some(10.0)
  {
    Form(Some(1000.0), Some(1024.0), Some(5.0), Some(-75.0), Some(2.0), Some(-109.0), Some(10.0),
         Some(200.0), Some(10.0), "equally_spaced", None)
  }

  /** `handleInputChange`: empty text clears the field, other text sets it
      to its number; either way the error disappears and no other field
      changes. */
  function InputChange(form: Form, f: Field, text: string, toNumber: string -> real): (r: Form)
    ensures Get(r, f).None? <==> text == ""
    ensures text != "" ==> Get(r, f) == Some(toNumber(text))
    ensures forall g :: g != f ==> Get(r, g) == Get(form, g)
    ensures r.error.None? && r.placementMethod == form.placementMethod
  {
    Set(form, f, if text == "" then None else Some(toNumber(text))).(error := None)
  }

  function ChoosePlacement(form: Form, placement: string): (r: Form)
    ensures r.placementMethod == placement
    ensures forall g :: Get(r, g) == Get(form, g)
  {
    form.(placementMethod := placement)
  }

  // ---------------------------------------------------------------------
  // Validation
  // ---------------------------------------------------------------------

  /** The first field of `fields`, from index `i` on, that is missing in
      the form, if any. */
  function FirstMissingFrom(form: Form, fields: seq<Field>, i: nat): (r: Option<Field>)
    requires i <= |fields|
    ensures r.None? <==> forall k :: i <= k < |fields| ==> Get(form, fields[k]).Some?
    ensures r.Some? ==> Get(form, r.value).None?
    ensures r.Some? ==> exists k :: i <= k < |fields| && fields[k] == r.value
                                   && forall j :: i <= j < k ==> Get(form, fields[j]).Some?
    decreases |fields| - i
  {
    if i == |fields| then None
    else if Get(form, fields[i]).None? then Some(fields[i])
    else FirstMissingFrom(form, fields, i + 1)
  }

  function FirstMissing(form: Form, fields: seq<Field>): Option<Field> {
    FirstMissingFrom(form, fields, 0)
  }

  /** `validateForm` as the component writes it: one test per field in a
      fixed order, stopping at the first missing one with its message. */
  function Validate(form: Form): (result: (bool, Form))
    ensures result.1.(error := form.error) == form
    ensures result.0 ==> result.1 == form
    ensures !result.0 ==> result.1.error.Some?
  {
    if form.rows.None? then (false, form.(error := Some("Rows is required")))
    else if form.cols.None? then (false, form.(error := Some("Columns is required")))
    else if form.numTransmitters.None? then (false, form.(error := Some("Number of Transmitters is required")))
    else if form.transmitterMean.None? then (false, form.(error := Some("Transmitter Mean is required")))
    else if form.transmitterSd.None? then (false, form.(error := Some("Transmitter Standard Deviation is required")))
    else if form.noiseMean.None? then (false, form.(error := Some("Noise Mean is required")))
    else if form.noiseSd.None? then (false, form.(error := Some("Noise Standard Deviation is required")))
    else if form.bandwidth.None? then (false, form.(error := Some("Bandwidth is required")))
    else if form.activeTime.None? then (false, form.(error := Some("Active Time is required")))
    else (true, form)
  }

  /** The form passes exactly when all nine fields hold a number; when it
      fails, the error names the first missing field in `FieldOrder`, and no
      field changes either way. */
  lemma ValidateReportsFirstMissing(form: Form)
    ensures Validate(form).0 <==> forall f :: Get(form, f).Some?
    ensures Validate(form).0 ==> Validate(form).1 == form
    ensures !Validate(form).0 ==>
              var missing := FirstMissing(form, FieldOrder);
              missing.Some? && Validate(form).1 == form.(error := Some(Message(missing.value)))
  {
    AllPresentByName(form);
    FirstMissingUnrolled(form);
  }

  /** Every field holds a number exactly when each named one does. */
  lemma AllPresentByName(form: Form)
    ensures (forall f :: Get(form, f).Some?) <==>
            && form.rows.Some? && form.cols.Some? && form.numTransmitters.Some?
            && form.transmitterMean.Some? && form.transmitterSd.Some?
            && form.noiseMean.Some? && form.noiseSd.Some?
            && form.bandwidth.Some? && form.activeTime.Some?
  {
    if forall f :: Get(form, f).Some? {
      assert Get(form, Rows).Some? && Get(form, Cols).Some? && Get(form, NumTransmitters).Some?;
      assert Get(form, TransmitterMean).Some? && Get(form, TransmitterSd).Some?;
      assert Get(form, NoiseMean).Some? && Get(form, NoiseSd).Some?;
      assert Get(form, Bandwidth).Some? && Get(form, ActiveTime).Some?;
    }
  }

  /** The search for the first missing field, one step per field. */
  lemma FirstMissingUnrolled(form: Form)
    ensures FirstMissing(form, FieldOrder) ==
      if form.rows.None? then Some(Rows)
      else if form.cols.None? then Some(Cols)
      else if form.numTransmitters.None? then Some(NumTransmitters)
      else if form.transmitterMean.None? then Some(TransmitterMean)
      else if form.transmitterSd.None? then Some(TransmitterSd)
      else if form.noiseMean.None? then Some(NoiseMean)
      else if form.noiseSd.None? then Some(NoiseSd)
      else if form.bandwidth.None? then Some(Bandwidth)
      else if form.activeTime.None? then Some(ActiveTime)
      else None
  {
    var o := FieldOrder;
    assert FirstMissingFrom(form, o, 9) == None;
    assert FirstMissingFrom(form, o, 8) == if form.activeTime.None? then Some(ActiveTime) else None;
    assert FirstMissingFrom(form, o, 7) == if form.bandwidth.None? then Some(Bandwidth) else FirstMissingFrom(form, o, 8);
    assert FirstMissingFrom(form, o, 6) == if form.noiseSd.None? then Some(NoiseSd) else FirstMissingFrom(form, o, 7);
    assert FirstMissingFrom(form, o, 5) == if form.noiseMean.None? then Some(NoiseMean) else FirstMissingFrom(form, o, 6);
    assert FirstMissingFrom(form, o, 4) == if form.transmitterSd.None? then Some(TransmitterSd) else FirstMissingFrom(form, o, 5);
    assert FirstMissingFrom(form, o, 3) == if form.transmitterMean.None? then Some(TransmitterMean) else FirstMissingFrom(form, o, 4);
    assert FirstMissingFrom(form, o, 2) == if form.numTransmitters.None? then Some(NumTransmitters) else FirstMissingFrom(form, o, 3);
    assert FirstMissingFrom(form, o, 1) == if form.cols.None? then Some(Cols) else FirstMissingFrom(form, o, 2);
  }

  /** A field missing while every field before it in `FieldOrder` is
      present is the one reported, whatever the later fields hold. */
  lemma EarlierFieldReportedFirst(form: Form, i: nat)
    requires i < |FieldOrder| && Get(form, FieldOrder[i]).None?
    requires forall j :: 0 <= j < i ==> Get(form, FieldOrder[j]).Some?
    ensures Validate(form) == (false, form.(error := Some(Message(FieldOrder[i]))))
  {
    ValidateReportsFirstMissing(form);
    var missing := FirstMissing(form, FieldOrder);
    var k :| 0 <= k < |FieldOrder| && FieldOrder[k] == missing.value
             && forall j :: 0 <= j < k ==> Get(form, FieldOrder[j]).Some?;
    assert k == i;
  }

  /** The opening form validates. */
  lemma DefaultsValidate()
    ensures Validate(Defaults()).0
  {
  }

  // ---------------------------------------------------------------------
  // Submission
  // ---------------------------------------------------------------------

  /** The request body handed to `onGenerate`. */
  datatype Payload = Payload(
    rows: real, cols: real, numTransmitters: real,
    transmitterMean: real, transmitterSd: real,
    noiseMean: real, noiseSd: real,
    bandwidth: real, activeTime: real,
    matrixFilename: string, transmittersFilename: string, placementMethod: string)

  const MatrixFilename := "output_matrix.csv"
  const TransmittersFilename := "output_transmitters.csv"

  function PayloadField(p: Payload, f: Field): real {
    match f
    case Rows => p.rows
    case Cols => p.cols
    case NumTransmitters => p.numTransmitters
    case TransmitterMean => p.transmitterMean
    case TransmitterSd => p.transmitterSd
    case NoiseMean => p.noiseMean
    case NoiseSd => p.noiseSd
    case Bandwidth => p.bandwidth
    case ActiveTime => p.activeTime
  }

  /** `handleSubmit`: `onGenerate` is called only with a valid form, and its
      payload carries the nine numbers, the two fixed output names and the
      chosen placement. */
  function Submit(form: Form): (result: (Form, Option<Payload>))
    ensures result.1.Some? <==> forall f :: Get(form, f).Some?
    ensures result.1.Some? ==>
              && (forall f :: Get(form, f) == Some(PayloadField(result.1.value, f)))
              && result.1.value.matrixFilename == MatrixFilename
              && result.1.value.transmittersFilename == TransmittersFilename
              && result.1.value.placementMethod == form.placementMethod
    ensures forall f :: Get(result.0, f) == Get(form, f)
  {
    ValidateReportsFirstMissing(form);
    var (valid, checked) := Validate(form);
    if !valid then (checked, None)
    else
      (checked, Some(Payload(
        form.rows.value, form.cols.value, form.numTransmitters.value,
        form.transmitterMean.value, form.transmitterSd.value,
        form.noiseMean.value, form.noiseSd.value,
        form.bandwidth.value, form.activeTime.value,
        MatrixFilename, TransmittersFilename, form.placementMethod)))
  }
}

=== FILE: menu.dfy ===
/**
 The menu bar: one optional name records which dropdown is open.
 */
module Menu {
  import opened Nullable

  /** The names of the four menus, in bar order. */
  const Menus: seq<string> := ["file", "edit", "view", "help"]

  /** `toggleDropdown`: the open menu closes, any other one opens in its
      place. */
  function ToggleDropdown(open: Option<string>, menu: string): (r: Option<string>)
    ensures open == Some(menu) ==> r == None
    ensures open != Some(menu) ==> r == Some(menu)
  {
    if open == Some(menu) then None else Some(menu)
  }

  /** Each dropdown renders exactly when the state names it. */
  predicate Visible(open: Option<string>, menu: string) {
    open == Some(menu)
  }

  /** Two visible dropdowns are the same dropdown. */
  lemma AtMostOneVisible(open: Option<string>, i: nat, j: nat)
    requires i < |Menus| && j < |Menus|
    requires Visible(open, Menus[i]) && Visible(open, Menus[j])
    ensures i == j
  {
  }

  /** After a toggle, the toggled menu is the only candidate for being
      visible, and it is visible exactly when it was not before. */
  lemma ToggleVisibility(open: Option<string>, menu: string, other: string)
    requires other != menu
    ensures Visible(ToggleDropdown(open, menu), menu) <==> !Visible(open, menu)
    ensures !Visible(ToggleDropdown(open, menu), other)
  {
  }

  /** Toggling the same menu twice from all-closed closes it again. */
  lemma ToggleTwice(menu: string)
    ensures ToggleDropdown(ToggleDropdown(None, menu), menu) == None
  {
  }
}

=== FILE: saved_files.dfy ===
/**
 The saved-file library: a local copy of the stored files, a search box that
 filters them by name, and an in-place rename. The outcome of the rename
 request is a parameter.
 */
module SavedFiles {
  import opened Nullable
  import Text

  /** One stored file as the file list returns it (`_id` is `id` here). */
  datatype SavedFile = SavedFile(id: string, filename: string)

  datatype Library = Library(files: seq<SavedFile>, searchTerm: string, editingId: Option<string>, editingName: string)

  /** How the rename request ended: `response.ok`, a non-ok response, or a
      thrown error. */
  datatype RenameReply = RenameOk | RenameRejected | RenameThrew

  /** The library when the list first arrives: nothing searched or edited. */
  function Mount(saved: seq<SavedFile>): (lib: Library)
    ensures lib.files == saved && lib.editingId.None? && lib.searchTerm == ""
    ensures Filtered(lib) == saved
  {
    AllMatchEmptyTerm(saved);
    Library(saved, "", None, "")
  }

  /** A new list from the parent replaces the local copy. */
  function Sync(lib: Library, saved: seq<SavedFile>): (r: Library)
    ensures r.files == saved
    ensures r.(files := lib.files) == lib
  {
    lib.(files := saved)
  }

  function SetSearchTerm(lib: Library, term: string): (r: Library)
    ensures r.searchTerm == term
    ensures r.(searchTerm := lib.searchTerm) == lib
  {
    lib.(searchTerm := term)
  }

  // ---------------------------------------------------------------------
  // Search
  // ---------------------------------------------------------------------

  /** `file.filename.toLowerCase().includes(searchTerm.toLowerCase())`. */
  predicate Matches(file: SavedFile, term: string) {
    Text.Includes(Text.ToLower(file.filename), Text.ToLower(term))
  }

  /** `files.filter(...)`: the matching files, in their original order. */
  function FilterFiles(files: seq<SavedFile>, term: string): (r: seq<SavedFile>)
    ensures |r| <= |files|
    ensures forall f :: f in r <==> f in files && Matches(f, term)
  {
    if |files| == 0 then []
    else (if Matches(files[0], term) then [files[0]] else []) + FilterFiles(files[1..], term)
  }

  function Filtered(lib: Library): seq<SavedFile> {
    FilterFiles(lib.files, lib.searchTerm)
  }

  /** Filtering a concatenation filters each part and keeps them in order,
      so the filter never reorders files. */
  lemma {:induction false} FilterAppend(a: seq<SavedFile>, b: seq<SavedFile>, term: string)
    ensures FilterFiles(a + b, term) == FilterFiles(a, term) + FilterFiles(b, term)
  {
    if |a| > 0 {
      assert (a + b)[1..] == a[1..] + b;
      FilterAppend(a[1..], b, term);
    } else {
      assert a + b == b;
    }
  }

  /** When every file matches, the filter returns the list unchanged. */
  lemma {:induction false} FilterAllMatch(files: seq<SavedFile>, term: string)
    requires forall i :: 0 <= i < |files| ==> Matches(files[i], term)
    ensures FilterFiles(files, term) == files
  {
    if |files| > 0 {
      FilterAllMatch(files[1..], term);
    }
  }

  /** An empty search term lists every file. */
  lemma AllMatchEmptyTerm(files: seq<SavedFile>)
    ensures FilterFiles(files, "") == files
  {
    forall i | 0 <= i < |files| ensures Matches(files[i], "") {
      Text.IncludesEmpty(Text.ToLower(files[i].filename));
    }
    FilterAllMatch(files, "");
  }

  /** The search ignores ASCII case on both sides: a file matches exactly
      when the lower-cased term occurs somewhere in the lower-cased name. */
  lemma MatchesIffOccurs(file: SavedFile, term: string)
    ensures Matches(file, term) <==>
            exists i :: Text.OccursAt(Text.ToLower(file.filename), Text.ToLower(term), i)
  {
    Text.IncludesIffOccurs(Text.ToLower(file.filename), Text.ToLower(term));
  }

  // ---------------------------------------------------------------------
  // Rename
  // ---------------------------------------------------------------------

  /** The pencil button: start editing `file` with its current name. */
  function BeginEdit(lib: Library, file: SavedFile): (r: Library)
    ensures r.editingId == Some(file.id) && r.editingName == file.filename
    ensures r.files == lib.files
  {
    lib.(editingId := Some(file.id), editingName := file.filename)
  }

  function EditName(lib: Library, name: string): (r: Library)
    ensures r.editingName == name
    ensures r.(editingName := lib.editingName) == lib
  {
    lib.(editingName := name)
  }

  /** The list with every entry whose id is `id` renamed to `newName`. */
  function RenameById(files: seq<SavedFile>, id: string, newName: string): (r: seq<SavedFile>)
    ensures |r| == |files|
    ensures forall k :: 0 <= k < |files| && files[k].id != id ==> r[k] == files[k]
    ensures forall k :: 0 <= k < |files| && files[k].id == id ==> r[k] == SavedFile(id, newName)
  {
    seq(|files|, k requires 0 <= k < |files| =>
      if files[k].id == id then files[k].(filename := newName) else files[k])
  }

  /** Whether some entry carries `id` (`findIndex` is not -1). */
  predicate HasId(files: seq<SavedFile>, id: string) {
    exists k :: 0 <= k < |files| && files[k].id == id
  }

  /** `handleFilenameChange`: a blank name or an unchanged name only closes
      the editor; otherwise the request is sent when the file is still in
      the list and the name is changed locally only if the server accepted
      it. The editor is closed in every case. */
  function Rename(lib: Library, file: SavedFile, newName: string, reply: RenameReply): (r: Library)
    ensures r.editingId.None?
    ensures r.searchTerm == lib.searchTerm
    ensures |r.files| == |lib.files|
    ensures Text.IsBlank(newName) || newName == file.filename ==> r.files == lib.files
    ensures !reply.RenameOk? ==> r.files == lib.files
  {
    if Text.IsBlank(newName) || newName == file.filename then
      lib.(editingId := None)
    else if HasId(lib.files, file.id) && reply.RenameOk? then
      lib.(files := RenameById(lib.files, file.id, newName), editingId := None)
    else
      lib.(editingId := None)
  }

  /** A rename the server accepted changes the name of exactly the entry
      with that id (one entry when ids are unique) and nothing else. */
  lemma RenameAcceptedChangesOnlyThatEntry(lib: Library, file: SavedFile, newName: string, k: nat)
    requires !Text.IsBlank(newName) && newName != file.filename
    requires k < |lib.files| && lib.files[k].id == file.id
    ensures var r := Rename(lib, file, newName, RenameOk);
            && r.files[k] == SavedFile(file.id, newName)
            && (forall j :: 0 <= j < |lib.files| && lib.files[j].id != file.id ==> r.files[j] == lib.files[j])
  {
  }

  /** A rename of a file no longer in the list sends nothing and changes
      no entry. */
  lemma RenameOfMissingFile(lib: Library, file: SavedFile, newName: string, reply: RenameReply)
    requires !HasId(lib.files, file.id)
    ensures Rename(lib, file, newName, reply).files == lib.files
  {
  }

  /** The key handler of the name box: Enter submits, Escape cancels
      without renaming, other keys leave the editor as it is. */
  function KeyDown(lib: Library, file: SavedFile, key: string, reply: RenameReply): (r: Library)
    ensures key == "Escape" ==> r.files == lib.files && r.editingId.None?
    ensures key != "Enter" && key != "Escape" ==> r == lib
    ensures key == "Enter" ==> r == Rename(lib, file, lib.editingName, reply)
    ensures key == "Enter" ==> r.editingId.None?
  {
    if key == "Enter" then Rename(lib, file, lib.editingName, reply)
    else if key == "Escape" then lib.(editingId := None)
    else lib
  }

  /** Cancelling a rename with Escape leaves every file name as it was
      before the editor opened, whatever was typed; only the search term
      and the editor's buffer remain from the edit. */
  lemma CancelKeepsNames(lib: Library, file: SavedFile, typed: string, reply: RenameReply)
    ensures var r := KeyDown(EditName(BeginEdit(lib, file), typed), file, "Escape", reply);
            r.files == lib.files && r.editingId.None? && r.searchTerm == lib.searchTerm
  {
  }

  /** Enter after typing a name submits exactly that name. */
  lemma EnterSubmitsTyped(lib: Library, file: SavedFile, typed: string, reply: RenameReply)
    ensures KeyDown(EditName(BeginEdit(lib, file), typed), file, "Enter", reply)
            == Rename(EditName(BeginEdit(lib, file), typed), file, typed, reply)
  {
  }
}

=== FILE: tabs.dfy ===
/**
 The tab bar: a list of tabs, each with a numeric id, a label and the file it
 shows, the index of the shown tab, and the in-place label editor.
 */
module Tabs {
  import opened Nullable
  import Text
  import Annotations

  datatype Tab = Tab(id: int, caption: string, fileId: Option<string>, annotations: Option<seq<Annotations.Annotation>>)

  /** `value` is the index of the shown tab; `editing` is `editingTabId`. */
  datatype TabBar = TabBar(tabs: seq<Tab>, value: int, editing: Option<int>, editValue: string)

  predicate IdsUnique(tabs: seq<Tab>) {
    forall i, j :: 0 <= i < j < |tabs| ==> tabs[i].id != tabs[j].id
  }

  /** The bar invariant: ids are unique, and the shown index points at a
      tab whenever there is one and is 0 otherwise. */
  predicate Valid(b: TabBar) {
    IdsUnique(b.tabs) && 0 <= b.value && (if |b.tabs| > 0 then b.value < |b.tabs| else b.value == 0)
  }

  predicate HasId(tabs: seq<Tab>, id: int) {
    exists i :: 0 <= i < |tabs| && tabs[i].id == id
  }

  /** The bar on first render: one empty tab with id 0 named "Tab 1", shown,
      and no label being edited. */
  function Initial(): (b: TabBar)
    ensures Valid(b) && |b.tabs| == 1 && b.editing.None? && b.value == 0
    ensures b.tabs[0].id == 0 && b.tabs[0].caption == TabLabel(1) && b.tabs[0].fileId.None?
    ensures b.tabs[0].caption == "Tab 1" && b.tabs[0].annotations == Some([])
  {
    TabBar([Tab(0, "Tab 1", None, Some([]))], 0, None, "")
  }

  // ---------------------------------------------------------------------
  // Adding, selecting and deleting tabs
  // ---------------------------------------------------------------------

  /** `Math.max(...tabs.map(tab => tab.id))`: an id that is at least every id
      and is the id of some tab. */
  function MaxId(tabs: seq<Tab>): (m: int)
    requires |tabs| > 0
    ensures forall i :: 0 <= i < |tabs| ==> tabs[i].id <= m
    ensures HasId(tabs, m)
  {
    if |tabs| == 1 then tabs[0].id
    else
      var rest := MaxId(tabs[1..]);
      if tabs[0].id >= rest then tabs[0].id else rest
  }

  /** The id `handleAdd` gives a new tab: one past the largest id, or 0 for
      an empty bar. It is never the id of an existing tab. */
  function FreshId(tabs: seq<Tab>): (id: int)
    ensures !HasId(tabs, id)
    ensures |tabs| == 0 ==> id == 0
    ensures forall i :: 0 <= i < |tabs| ==> tabs[i].id < id
    ensures |tabs| > 0 ==> HasId(tabs, id - 1)
  {
    if |tabs| > 0 then MaxId(tabs) + 1 else 0
  }

  /** The label of the `n`-th tab, `Tab ${n}`. */
  function TabLabel(n: nat): string {
    "Tab " + Text.NatToString(n)
  }

  /** `handleAdd`: one empty tab appended after the others, which stay as
      they were, labelled after the new length. */
  function Add(b: TabBar): (r: TabBar)
    ensures |r.tabs| == |b.tabs| + 1 && r.tabs[..|b.tabs|] == b.tabs
    ensures !HasId(b.tabs, r.tabs[|b.tabs|].id)
    ensures r.tabs[|b.tabs|].id == FreshId(b.tabs)
    ensures r.tabs[|b.tabs|].caption == TabLabel(|r.tabs|) && r.tabs[|b.tabs|].fileId.None?
    ensures r.value == b.value && r.editing == b.editing
    ensures Valid(b) ==> Valid(r)
  {
    b.(tabs := b.tabs + [Tab(FreshId(b.tabs), TabLabel(|b.tabs| + 1), None, None)])
  }

  /** Different numbers give different labels. */
  lemma TabLabelInjective(m: nat, n: nat)
    requires TabLabel(m) == TabLabel(n)
    ensures m == n
  {
    assert Text.NatToString(m) == TabLabel(m)[4..];
    Text.NatToStringInjective(m, n);
  }

  /** `handleChange`: show the tab at index `v`. */
  function Select(b: TabBar, v: int): (r: TabBar)
    ensures r.value == v && r.tabs == b.tabs
    ensures Valid(b) && 0 <= v < |b.tabs| ==> Valid(r)
  {
    b.(value := v)
  }

  /** `filter((_, index) => index !== i)`, written element by element. */
  function WithoutIndex<T>(xs: seq<T>, i: int): (r: seq<T>)
    decreases |xs|
  {
    if |xs| == 0 then []
    else (if i == 0 then [] else [xs[0]]) + WithoutIndex(xs[1..], i - 1)
  }

  /** The filter removes exactly the element at index `i` and keeps the rest
      in order; an index outside the list removes nothing. */
  lemma {:induction false} WithoutIndexIsSplice<T>(xs: seq<T>, i: int)
    ensures 0 <= i < |xs| ==> WithoutIndex(xs, i) == xs[..i] + xs[i + 1..]
    ensures !(0 <= i < |xs|) ==> WithoutIndex(xs, i) == xs
    decreases |xs|
  {
    if |xs| > 0 {
      WithoutIndexIsSplice(xs[1..], i - 1);
      if i > 0 && i < |xs| {
        assert xs[1..][..i - 1] == xs[1..i];
        assert xs[1..][i..] == xs[i + 1..];
        assert [xs[0]] + xs[1..i] == xs[..i];
      } else if i != 0 {
        assert [xs[0]] + xs[1..] == xs;
      }
    }
  }

  /** `handleDelete(i)`: the tab at index `i` is removed and, when it was at
      or before the shown one, the shown index moves back by one without
      going below zero. */
  function Delete(b: TabBar, i: int): (r: TabBar)
    ensures 0 <= i < |b.tabs| ==> r.tabs == b.tabs[..i] + b.tabs[i + 1..]
    ensures !(0 <= i < |b.tabs|) ==> r.tabs == b.tabs
    ensures i <= b.value ==> r.value == if b.value - 1 > 0 then b.value - 1 else 0
    ensures i > b.value ==> r.value == b.value
    ensures r.editing == b.editing && r.editValue == b.editValue
  {
    WithoutIndexIsSplice(b.tabs, i);
    var v := if i <= b.value then (if b.value - 1 > 0 then b.value - 1 else 0) else b.value;
    b.(tabs := WithoutIndex(b.tabs, i), value := v)
  }

  /** Deleting a tab keeps ids unique and, while a tab remains, keeps the
      shown index on a tab. */
  lemma DeletePreservesValid(b: TabBar, i: int)
    requires Valid(b)
    ensures Valid(Delete(b, i))
  {
    var r := Delete(b, i);
    if 0 <= i < |b.tabs| {
      forall p, q | 0 <= p < q < |r.tabs| ensures r.tabs[p].id != r.tabs[q].id {
        var p' := if p < i then p else p + 1;
        var q' := if q < i then q else q + 1;
        assert r.tabs[p] == b.tabs[p'] && r.tabs[q] == b.tabs[q'];
      }
    }
  }

  // ---------------------------------------------------------------------
  // Updating tabs by id
  // ---------------------------------------------------------------------

  /** Every tab whose id is `id` replaced by `change` of it; the others stay. */
  function UpdateWhere(tabs: seq<Tab>, id: int, change: Tab -> Tab): (r: seq<Tab>)
    ensures |r| == |tabs|
    ensures forall k :: 0 <= k < |tabs| ==> r[k] == if tabs[k].id == id then change(tabs[k]) else tabs[k]
  {
    seq(|tabs|, k requires 0 <= k < |tabs| => if tabs[k].id == id then change(tabs[k]) else tabs[k])
  }

  /** `updateFileId`: the tab with id `id` gets the file and its annotation
      list; length, order, ids, labels and every other tab are unchanged. */
  function UpdateFileId(b: TabBar, id: int, fileId: Option<string>, annotations: Option<seq<Annotations.Annotation>>): (r: TabBar)
    ensures |r.tabs| == |b.tabs| && r.value == b.value && r.editing == b.editing
    ensures forall k :: 0 <= k < |b.tabs| ==> r.tabs[k].id == b.tabs[k].id && r.tabs[k].caption == b.tabs[k].caption
    ensures forall k :: 0 <= k < |b.tabs| && b.tabs[k].id != id ==> r.tabs[k] == b.tabs[k]
    ensures forall k :: 0 <= k < |b.tabs| && b.tabs[k].id == id ==>
              r.tabs[k].fileId == fileId && r.tabs[k].annotations == annotations
    ensures Valid(b) ==> Valid(r)
  {
    b.(tabs := UpdateWhere(b.tabs, id, (t: Tab) => t.(fileId := fileId, annotations := annotations)))
  }

  // ---------------------------------------------------------------------
  // Renaming
  // ---------------------------------------------------------------------

  /** `handleDoubleClick`: open the editor on tab `id` with its label. */
  function BeginRename(b: TabBar, id: int, currentLabel: string): (r: TabBar)
    ensures r.editing == Some(id) && r.editValue == currentLabel && r.tabs == b.tabs
  {
    b.(editing := Some(id), editValue := currentLabel)
  }

  function EditLabel(b: TabBar, text: string): (r: TabBar)
    ensures r.editValue == text
    ensures r.(editValue := b.editValue) == b
  {
    b.(editValue := text)
  }

  /** `handleRenameSubmit`: the tab with id `id` takes the edited text as
      its label, nothing else about any tab changes, and the editor closes. */
  function RenameSubmit(b: TabBar, id: int): (r: TabBar)
    ensures r.editing.None? && r.value == b.value && |r.tabs| == |b.tabs|
    ensures forall k :: 0 <= k < |b.tabs| && b.tabs[k].id != id ==> r.tabs[k] == b.tabs[k]
    ensures forall k :: 0 <= k < |b.tabs| && b.tabs[k].id == id ==> r.tabs[k] == b.tabs[k].(caption := b.editValue)
    ensures Valid(b) ==> Valid(r)
  {
    b.(tabs := UpdateWhere(b.tabs, id, (t: Tab) => t.(caption := b.editValue)), editing := None)
  }

  /** `handleKeyDown`: Enter commits the rename, Escape closes the editor
      without changing any label, other keys change nothing. */
  function KeyDown(b: TabBar, key: string, id: int): (r: TabBar)
    ensures key == "Enter" ==> r == RenameSubmit(b, id)
    ensures key == "Escape" ==> r.tabs == b.tabs && r.editing.None?
    ensures key != "Enter" && key != "Escape" ==> r == b
  {
    if key == "Enter" then RenameSubmit(b, id)
    else if key == "Escape" then b.(editing := None)
    else b
  }

  /** Cancelling an edit leaves every label as it was before the edit began,
      whatever was typed. */
  lemma CancelKeepsLabels(b: TabBar, id: int, shown: string, typed: string)
    ensures KeyDown(EditLabel(BeginRename(b, id, shown), typed), "Escape", id).tabs == b.tabs
  {
  }

  /** Labels follow the number of tabs, not the ids, so they can repeat:
      from the first render, adding a tab, deleting the first and adding
      again leaves two tabs both labelled "Tab 2". */
  lemma LabelsCanRepeat()
    ensures var b := Add(Delete(Add(Initial()), 0));
            |b.tabs| == 2 && b.tabs[0].caption == b.tabs[1].caption == "Tab 2"
            && b.tabs[0].id != b.tabs[1].id
  {
    var b1 := Add(Initial());
    assert b1.tabs[1].caption == TabLabel(2) == "Tab 2";
    var b2 := Delete(b1, 0);
    assert b2.tabs == [b1.tabs[1]];
    var b3 := Add(b2);
    assert b3.tabs[1].caption == TabLabel(2);
  }

  /** A sequence of tab-bar events from the first render. */
  datatype Event = AddTab | SelectTab(index: int) | DeleteTab(index: int)
                 | SetFile(id: int, fileId: Option<string>, annotations: Option<seq<Annotations.Annotation>>)
                 | DoubleClick(id: int, currentLabel: string) | Type(text: string) | Key(key: string, id: int)

  /** One event: only adding and deleting change the number of tabs, by one
      each, and a selection of an existing tab shows it. */
  function Apply(b: TabBar, e: Event): (r: TabBar)
    ensures e.AddTab? ==> |r.tabs| == |b.tabs| + 1
    ensures e.DeleteTab? && 0 <= e.index < |b.tabs| ==> |r.tabs| == |b.tabs| - 1
    ensures e.DeleteTab? && !(0 <= e.index < |b.tabs|) ==> r.tabs == b.tabs
    ensures !e.AddTab? && !e.DeleteTab? ==> |r.tabs| == |b.tabs|
    ensures e.SelectTab? && 0 <= e.index < |b.tabs| ==> r.value == e.index
    ensures e.SelectTab? ==> r.tabs == b.tabs
  {
    match e
    case AddTab => Add(b)
    case SelectTab(v) => if 0 <= v < |b.tabs| then Select(b, v) else b
    case DeleteTab(i) => Delete(b, i)
    case SetFile(id, f, a) => UpdateFileId(b, id, f, a)
    case DoubleClick(id, l) => BeginRename(b, id, l)
    case Type(t) => EditLabel(b, t)
    case Key(k, id) => KeyDown(b, k, id)
  }

  /** A run of events grows the bar by at most one tab per event. */
  function Run(b: TabBar, events: seq<Event>): (r: TabBar)
    ensures |r.tabs| <= |b.tabs| + |events|
    decreases |events|
  {
    if |events| == 0 then b else Run(Apply(b, events[0]), events[1..])
  }

  /** Every bar reached from the first render has unique ids and shows a
      tab whenever one exists. Selection events are taken as the tab strip
      produces them, for an existing index. */
  lemma {:induction false} RunPreservesValid(b: TabBar, events: seq<Event>)
    requires Valid(b)
    ensures Valid(Run(b, events))
    decreases |events|
  {
    if |events| > 0 {
      var next := Apply(b, events[0]);
      if events[0].DeleteTab? {
        DeletePreservesValid(b, events[0].index);
      }
      assert Valid(next);
      RunPreservesValid(next, events[1..]);
    }
  }
}

=== FILE: text.dfy ===
/**
 The JavaScript value `null` (or `undefined`) next to a present value. Every
 nullable piece of component state (`string | null`, `number | null`, an
 optional response field) is an `Option` here.
 */
module Nullable {

  datatype Option<+T> = None | Some(value: T)
}

/**
 The few string operations the components use: `toLowerCase` (ASCII letters
 only), `trim`, `includes`, `endsWith`, and the decimal rendering of a
 natural number that a template literal such as `Tab ${n}` performs.
 */
module Text {

  // ---------------------------------------------------------------------
  // Case folding
  // ---------------------------------------------------------------------

  predicate IsAsciiUpper(c: char) {
    'A' <= c <= 'Z'
  }

  /** `toLowerCase` restricted to one character: upper-case ASCII letters
      move to their lower-case partner, everything else is kept. */
  function LowerChar(c: char): (r: char)
    ensures !IsAsciiUpper(r)
    ensures IsAsciiUpper(c) ==> r as int - c as int == 'a' as int - 'A' as int
    ensures !IsAsciiUpper(c) ==> r == c
  {
    if IsAsciiUpper(c) then (c as int + ('a' as int - 'A' as int)) as char else c
  }

  function ToLower(s: string): (r: string)
    ensures |r| == |s|
    ensures forall i :: 0 <= i < |s| ==> r[i] == LowerChar(s[i])
  {
    seq(|s|, i requires 0 <= i < |s| => LowerChar(s[i]))
  }

  // ---------------------------------------------------------------------
  // Prefixes, suffixes and substrings
  // ---------------------------------------------------------------------

  predicate IsPrefix(p: string, s: string) {
    |p| <= |s| && s[..|p|] == p
  }

  /** `s.endsWith(suffix)`. */
  predicate EndsWith(s: string, suffix: string) {
    |suffix| <= |s| && s[|s| - |suffix|..] == suffix
  }

  /** `endsWith` holds exactly when `s` is some text followed by the suffix. */
  lemma EndsWithIsConcatenation(s: string, suffix: string)
    ensures EndsWith(s, suffix) <==> exists p: string :: s == p + suffix
  {
    if EndsWith(s, suffix) {
      assert s == s[..|s| - |suffix|] + suffix;
    }
    if exists p: string :: s == p + suffix {
      var p: string :| s == p + suffix;
      assert s[|s| - |suffix|..] == suffix;
    }
  }

  /** `t` occurs in `s` starting at index `i`. */
  ghost predicate OccursAt(s: string, t: string, i: int) {
    0 <= i && i + |t| <= |s| && s[i..i + |t|] == t
  }

  /** `s.includes(t)`, written as the left-to-right scan a runtime performs. */
  predicate Includes(s: string, t: string)
    decreases |s|
  {
    IsPrefix(t, s) || (|s| > 0 && Includes(s[1..], t))
  }

  /** The scan agrees with the definition of a substring occurrence. */
  lemma {:induction false} IncludesIffOccurs(s: string, t: string)
    ensures Includes(s, t) <==> exists i :: OccursAt(s, t, i)
    decreases |s|
  {
    if |s| > 0 {
      IncludesIffOccurs(s[1..], t);
    }
    if Includes(s, t) {
      if IsPrefix(t, s) {
        assert OccursAt(s, t, 0);
      } else {
        var i :| OccursAt(s[1..], t, i);
        assert s[i + 1..i + 1 + |t|] == s[1..][i..i + |t|];
        assert OccursAt(s, t, i + 1);
      }
    }
    if exists i :: OccursAt(s, t, i) {
      var i :| OccursAt(s, t, i);
      if i == 0 {
        assert IsPrefix(t, s);
      } else {
        assert s[1..][i - 1..i - 1 + |t|] == s[i..i + |t|];
        assert OccursAt(s[1..], t, i - 1);
      }
    }
  }

  /** Every string includes the empty string. */
  lemma IncludesEmpty(s: string)
    ensures Includes(s, "")
  {
    assert IsPrefix("", s);
  }

  // ---------------------------------------------------------------------
  // Trimming
  // ---------------------------------------------------------------------

  /** The characters `String.prototype.trim` removes: ECMAScript WhiteSpace
      (tab, vertical tab, form feed, the byte-order mark and every space
      separator) and LineTerminator (LF, CR, LS, PS). */
  predicate IsWhitespace(c: char) {
    || c == '\t' || c == '\n' || c == '\U{000B}' || c == '\U{000C}' || c == '\r'
    || c == ' ' || c == '\U{00A0}' || c == '\U{1680}'
    || ('\U{2000}' <= c <= '\U{200A}')
    || c == '\U{2028}' || c == '\U{2029}' || c == '\U{202F}' || c == '\U{205F}'
    || c == '\U{3000}' || c == '\U{FEFF}'
  }

  /** Drops leading whitespace: the result is a suffix of `s`, everything
      dropped is whitespace, and the result does not start with whitespace. */
  function TrimStart(s: string): (r: string)
    ensures |r| <= |s| && r == s[|s| - |r|..]
    ensures forall i :: 0 <= i < |s| - |r| ==> IsWhitespace(s[i])
    ensures |r| > 0 ==> !IsWhitespace(r[0])
  {
    if |s| > 0 && IsWhitespace(s[0]) then TrimStart(s[1..]) else s
  }

  /** Drops trailing whitespace: the result is a prefix of `s`, everything
      dropped is whitespace, and the result does not end with whitespace. */
  function TrimEnd(s: string): (r: string)
    ensures |r| <= |s| && r == s[..|r|]
    ensures forall i :: |r| <= i < |s| ==> IsWhitespace(s[i])
    ensures |r| > 0 ==> !IsWhitespace(r[|r| - 1])
  {
    if |s| > 0 && IsWhitespace(s[|s| - 1]) then TrimEnd(s[..|s| - 1]) else s
  }

  /** `r` is the slice of `s` starting at `a`, and everything of `s` before
      and after that slice is whitespace. */
  predicate TrimmedAt(s: string, r: string, a: int) {
    && 0 <= a && a + |r| <= |s| && r == s[a..a + |r|]
    && (forall i :: 0 <= i < a ==> IsWhitespace(s[i]))
    && (forall i :: a + |r| <= i < |s| ==> IsWhitespace(s[i]))
  }

  /** `s.trim()`: the text with its leading and trailing whitespace removed,
      and nothing else. */
  function Trim(s: string): (r: string)
    ensures |r| <= |s|
    ensures exists a :: TrimmedAt(s, r, a)
    ensures |r| > 0 ==> !IsWhitespace(r[0]) && !IsWhitespace(r[|r| - 1])
  {
    var t := TrimStart(s);
    var r := TrimEnd(t);
    assert TrimmedAt(s, r, |s| - |t|);
    r
  }

  /** `!s.trim()`: the trimmed text is the empty, falsy string. */
  predicate IsBlank(s: string) {
    Trim(s) == ""
  }

  /** A string is blank exactly when every character of it is whitespace. */
  lemma BlankIffAllWhitespace(s: string)
    ensures IsBlank(s) <==> forall i :: 0 <= i < |s| ==> IsWhitespace(s[i])
  {
  }

  // ---------------------------------------------------------------------
  // Decimal rendering of natural numbers
  // ---------------------------------------------------------------------

  predicate IsDigit(c: char) {
    '0' <= c <= '9'
  }

  function DigitChar(d: nat): (c: char)
    requires d < 10
    ensures IsDigit(c) && c as int - '0' as int == d
  {
    ('0' as int + d) as char
  }

  /** The decimal text JavaScript produces for a non-negative integer:
      digits only, and no leading zero unless the number is zero. */
  function NatToString(n: nat): (r: string)
    ensures |r| >= 1
    ensures forall i :: 0 <= i < |r| ==> IsDigit(r[i])
    ensures |r| > 1 ==> r[0] != '0'
  {
    if n < 10 then [DigitChar(n)] else NatToString(n / 10) + [DigitChar(n % 10)]
  }

  function DigitValue(c: char): (d: nat)
    requires IsDigit(c)
    ensures d < 10 && DigitChar(d) == c
  {
    c as int - '0' as int
  }

  /** Reads a string of decimal digits back as a number. */
  function ParseDigits(s: string): nat
    requires forall i :: 0 <= i < |s| ==> IsDigit(s[i])
  {
    if |s| == 0 then 0 else ParseDigits(s[..|s| - 1]) * 10 + DigitValue(s[|s| - 1])
  }

  /** Rendering a number and reading it back gives the number, so distinct
      numbers render as distinct text. */
  lemma {:induction false} ParseNatToString(n: nat)
    ensures ParseDigits(NatToString(n)) == n
  {
    var r := NatToString(n);
    if n >= 10 {
      ParseNatToString(n / 10);
      assert r[..|r| - 1] == NatToString(n / 10);
    }
  }

  /** Two numbers with the same decimal text are equal. */
  lemma NatToStringInjective(m: nat, n: nat)
    requires NatToString(m) == NatToString(n)
    ensures m == n
  {
    ParseNatToString(m);
    ParseNatToString(n);
  }
}
